=== FILE: README.md ===
# D_Bot in Dafny

A model of the posting bots of D_Bot, with proofs about it. D_Bot reads Stacker News RSS feeds and
republishes each new item to Twitter and to Nostr. It remembers what it has posted so that an item
is never published twice.

- **D_Poster.js** (`DPoster`) is the Design bot. It keeps its posted links in a GitHub gist
  (posted.txt, one link per line). It tweets one of four random formats. It publishes to Nostr by
  running nostr.py as a subprocess. A link is recorded, and the gist rewritten, as soon as either
  platform reports success.
- **hnfPoster.js** (`HnfPoster`) is the Health and Fitness bot. It keeps a local posted.json
  (`{ "posted": [...] }`). It tweets and publishes a kind-1 Nostr note. It records every link it
  tries, without checking the outcome. It writes the file once, after the loop. A publish call
  that throws ends the run before that write.
- **nostr.py** (`NostrScript`) is the subprocess. It keeps its own posted.txt, picks the message it
  is given or one of 44 templates, and publishes to a list of relays.
- **lib/nostr.py** (`NostrLib`) is the library variant of nostr.py. It adds:
  - a JSON posted-items file keyed by item id, which also accepts a list or plain lines;
  - `get_item_id`;
  - the `post_to_nostr_safe` wrapper.

  Its `load_posted_cache` and `save_posted_cache` (lib/nostr.py:128-138) are the same code as
  nostr.py:24-34, so `NostrScript.LoadPostedCache` and `NostrScript.SavePostedCache` model both.

Shared modules:

- `Strings`:
  - JavaScript `trim` and Python `strip`, each with its own whitespace set;
  - `split` and `join`;
  - substring tests;
  - Python's text-mode newline translation.
- `Collections`:
  - a JavaScript `Set` is a duplicate-free sequence in insertion order;
  - iterating over a Python `set` visits the elements in an order the program does not choose.
- `JsonValue`: parsed JSON values, and cache files that carry their text together with the
  parser's verdict on it.
- `Template`: message templates as fixed text around the author, title and link.
- `Feed`: item extraction from regular-expression captures.
- `Tweet`: the 280-character cut.

The outside world enters the model as explicit parameters:

- the RSS captures;
- the random picks: a format index for the bots, the chosen template for nostr.py;
- Twitter's reply, the Nostr exit code and the relays' behaviour;
- the clock;
- the file contents.

Stateful code keeps its form:

- The bots' loops are methods (`RunDBot`, `RunHnfBot`). Each is proved equal to a fold (`RunTo`,
  `HnfRunTo` over the first k items) about which the lemmas speak.
- The Python `NostrPoster.post` methods update a caller-owned set object (`PostedSet`) and a file
  object (`TextFile`) in place.

## Model

| member | source | states |
|---|---|---|
| Strings.Strip | D_Poster.js:30 | the result starts and ends with no whitespace, keeps an already trimmed string unchanged, is empty exactly when the input is all whitespace, and only holds characters of the input |
| Strings.StripIsInfix | D_Poster.js:30 | the trimmed text is a slice of the input with only whitespace before and after it: only leading and trailing whitespace is removed |
| Strings.SplitPieces | D_Poster.js:30 | no piece of `split` holds the separator, and a string without the separator is its own single piece |
| Strings.SplitJoin | D_Poster.js:30 | joining the pieces of `split` with the separator gives the text back |
| Strings.SplitTerminated | nostr.py:31-34 | splitting text written as "each piece followed by a newline" gives the pieces back plus the empty piece after the last newline |
| Strings.NonBlankMembers | nostr.py:28 | a string is kept exactly when it is non-empty and is the stripped form of some line |
| Strings.NonBlankOfClean | D_Poster.js:30-36 | non-empty, stripped, separator-free lines followed by the final empty piece come back exactly, in order |
| Strings.UniversalNewlines | nostr.py:27-28 | text read in text mode holds no carriage return, and text without one is unchanged; `UniversalNewlinesPieces` and `UniversalNewlinesAppend` fix every other case (`\r\n` and a lone `\r` each become `\n`) |
| Strings.UniversalNewlinesAppend | nostr.py:27-28 | the translation goes piece by piece: cutting the text anywhere except inside a `\r\n` pair and translating the two parts gives the translation of the whole |
| Strings.UniversalNewlinesPieces | nostr.py:27-28 | `\r\n` and a lone `\r` each become one `\n`, and every other character stays; with the piece-by-piece lemma this fixes the translation of every text |
| Collections.Dedup | D_Poster.js:30 | `new Set(xs)`: duplicate-free, the same elements as `xs`, ordered by where each first occurs in `xs`, and `xs` itself when `xs` already has no duplicates |
| Collections.Enumerate | nostr.py:33 | iterating a Python set visits every element exactly once |
| Template.RenderShowsFields | D_Poster.js:65-77 | a message rendered from a template naming author, title and link contains all three, and starts with the lead text followed by the first field |
| Template.RenderTagsAuthor | nostr.py:57 | a template that writes `@` right before the author gives a message holding `@` followed by the author |
| Feed.TrimmedCapture | D_Poster.js:56-57 | `?.[1]?.trim()` exists exactly when the capture does, and is then the capture with JavaScript whitespace trimmed from both ends |
| Feed.AuthorOf | D_Poster.js:58-60 | the trimmed atom name when non-empty, else the trimmed plain name when non-empty, else "Someone"; never empty |
| Feed.ExtractItem | D_Poster.js:54-61 | link and title are the trimmed `<guid>` and `<title>` captures, the author is `AuthorOf` the two name captures; the link exists exactly when `<guid>` matched, has no line terminator when the capture has none, and the author is never empty |
| Feed.ExtractItems | D_Poster.js:53-62 | one item per `<item>` block, item i extracted from block i; each has a link exactly when its `<guid>` matched, and a non-empty author |
| Feed.ExtractItemsAppend | D_Poster.js:53-62 | extraction keeps document order: the items of two runs of blocks are those of the first run followed by those of the second |
| Tweet.Truncate | D_Poster.js:91 | at most 280 characters; short messages unchanged; a long one keeps its first 277 characters and ends in "..." |
| Tweet.TruncateIdempotent | hnfPoster.js:60 | cutting an already cut message changes nothing |
| DPoster.LoadPostedCache | D_Poster.js:23-31 | the loaded links are duplicate-free, and a missing file entry gives none |
| DPoster.LoadedLinks | D_Poster.js:29-30 | a string is loaded exactly when it is a non-empty trimmed line of the content |
| DPoster.SavePostedCache | D_Poster.js:33-36 | the content ends in a newline: it is a lone newline for the empty list, and otherwise every link followed by a newline |
| DPoster.LoadedLinksAreGistLinks | D_Poster.js:30 | every loaded link is non-empty, trimmed and free of newlines |
| DPoster.GistRoundTrip | D_Poster.js:30-36 | loading what was saved gives back the same distinct clean links in the same order |
| DPoster.Format | D_Poster.js:66-75 | each of the four formats opens with fixed text and writes `@` right before the author |
| DPoster.MessageFormat | D_Poster.js:65-78 | each format names the author, the title (or "undefined") and the link, holds `@` followed by the author, and starts with its fixed lead, so it is never empty |
| DPoster.DecorateLink | D_Poster.js:89 | the link ends with "/r/deSign_r", starts with the original link, and is unchanged when it already had the suffix |
| DPoster.DecorateLinkIdempotent | D_Poster.js:102 | the suffix is never doubled |
| DPoster.TweetText | D_Poster.js:89-91 | the tweet is at most 280 characters: the full formatted message over the decorated link whenever that fits, and otherwise its first 277 characters followed by "..." |
| DPoster.NostrEntry | D_Poster.js:102-111 | the entry carries the item's title and author, the decorated link, and as its message the chosen format over those, which is never empty |
| DPoster.NostrPublishesTheGivenMessage | nostr.py:48-49 | nostr.py publishes the bot's message verbatim, whatever template it would have picked |
| DPoster.ProcessItem | D_Poster.js:127-148 | skip exactly the items with no link or a known link; an attempted step is about the item's link; the link is added exactly when the tweet or the Nostr run succeeded |
| DPoster.ProcessItemFacts | D_Poster.js:128-148 | for an attempted item: the gist is saved, with the new list, exactly on success; the tweet counts exactly when Twitter is unconfigured or accepted it; a duplicate rejection is not a success; Nostr success is exit code 0 |
| DPoster.ItemMessages | D_Poster.js:89-111 | a tweet exactly when Twitter is configured, at most 280 characters, namely `TweetText` of the item with the tweet's format pick; the Nostr entry is `NostrEntry` of the item with the second pick, carrying the decorated link and a non-empty message |
| DPoster.PostItem | D_Poster.js:127-148 | the loop body gives the new list and step of `ProcessItem` |
| DPoster.RunTo | D_Poster.js:126-151 | after k items there is one step per item; the loaded links stay a prefix of the list |
| DPoster.RunDistinct | D_Poster.js:126-147 | from duplicate-free loaded links, the posted list stays duplicate-free at every point of the run |
| DPoster.RunLoop | D_Poster.js:126-151 | the loop's list and trace are those of `Run`; the list only grows and never repeats a link |
| DPoster.RunDBot | D_Poster.js:122-153 | the loop's posted list and trace are those of `Run` over the loaded gist; the list only grows and never repeats a link |
| DPoster.RunStepAt | D_Poster.js:126-150 | at any point after item i, its step is the loop body applied with the links posted before i |
| DPoster.AddedStep | D_Poster.js:145-147 | one more item keeps the list equal to the loaded links followed by the links of the succeeded steps |
| DPoster.RunPosted | D_Poster.js:145-147 | after any number of items, the list is the loaded links followed by the links of the succeeded items, in feed order |
| DPoster.RunNoDoublePost | D_Poster.js:127 | no link is recorded twice in a run, and no loaded link is recorded again |
| DPoster.RunSkipsKnownLinks | D_Poster.js:127 | items without a link or with a loaded link are skipped; every attempted link is the item's link and was not loaded |
| DPoster.RunStepFacts | D_Poster.js:128-148 | per attempted step: the tweet counts exactly when Twitter is unconfigured or accepted it; a duplicate rejection does not; Nostr success is exit code 0; a save exactly on success; with Twitter unconfigured every attempt succeeds |
| DPoster.GistStep | D_Poster.js:145-147 | when the gist reads back as the list, it still does after one more item |
| DPoster.GistStepAt | D_Poster.js:145-147 | the same for the k-th item of a run |
| DPoster.RunGistMatchesPosted | D_Poster.js:145-147 | with one-line trimmed feed links, at every point of the run reading the gist gives exactly the posted list |
| DPoster.CapturedFeedKeepsGist | D_Poster.js:56 | links captured by the one-line `<guid>` pattern are all gist links, so over a whole run on the feed the gist reads back as the posted list |
| DPoster.RunCoversFeed | D_Poster.js:145-146 | when every attempt among the first k items succeeded, each of their links is in the list |
| DPoster.KnownFeedIsSkipped | D_Poster.js:127 | a feed whose links are all known is skipped item by item and leaves the list unchanged, at every point of the run |
| DPoster.RunAgainIsQuiet | D_Poster.js:127 | after a run in which every attempt succeeded, a second run over the same feed skips everything, whatever the platforms answer |
| DPoster.RunAgainFromGistIsQuiet | D_Poster.js:122-147 | the same when the second run loads the gist the first one left: with one-line trimmed feed links, it starts from the posted list and skips every item |
| DPoster.NostrOutcome | D_Poster.js:112-118 | nostr.py publishes the bot's entry exactly when the decorated link is not in its own posted.txt and the relays accept; it answers "already posted" exactly when the link is there |
| DPoster.UnpublishedLinkIsRecorded | D_Poster.js:139-147 | as written: with Twitter rejecting and the relays failing, the link is still recorded, because nostr.py exits 0 |
| DPoster.RecordedOnlyWhenPublished | D_Poster.js:139-147 | with the intended exit status, a link is recorded exactly when the tweet was accepted or the note is on Nostr, published by this run of nostr.py or an earlier one |
| NostrScript.LoadPostedCache | nostr.py:24-29 | no file gives the empty set; otherwise a string is in the set exactly when it is a non-empty stripped line of the text-mode content |
| NostrScript.LoadTerminated | nostr.py:24-34 | loading the text a save writes gives exactly the saved links, when each is a clean line |
| NostrScript.WriteLinks | nostr.py:33-34 | the loop writes every link of the set once, each followed by a newline, in the order it visited them |
| NostrScript.SavePostedCache | nostr.py:31-34 | writes every link of the set once, each followed by a newline, in some iteration order; loading it back gives the same set for clean links |
| NostrScript.NostrPoster.constructor | nostr.py:37-39 | the poster keeps the relay list it was given; the list stands for the relay setup and nothing reads it |
| NostrScript.NostrPoster.BuildNostrEntry | nostr.py:46-190 | a non-empty message is returned verbatim; otherwise a note exists exactly when author, title and link are all present, and then contains all three, and `@` and the author when the picked template tags the author |
| NostrScript.TemplatesTagAuthor | nostr.py:55-187 | every one of the 44 templates writes `@` right before the author, so a note built from any of them tags the author |
| NostrScript.PostOutcome | nostr.py:192-216 | no link gives "skipped"; a link in the caller's set gives "already posted"; publication happens exactly when the link is fresh, the note was built and the relays returned, and carries that link and note |
| NostrScript.PostedLinkIsNotRepublished | nostr.py:198-212 | once published and added, the same link is refused as already posted |
| NostrScript.NostrPoster.Post | nostr.py:192-216 | with the template `random.choice` picked: on publication the link is added to the caller's set; posted.txt is then rewritten as every member of the set once, each followed by a newline, which loads back to the set for clean links, and True is returned; when posted.txt cannot be opened the link stays added, the file is untouched and False is returned; without publication both are untouched and False is returned |
| NostrScript.ScriptExitStatus | nostr.py:221-233 | as written: the status is 0 exactly when the entry parsed and the key was accepted, whatever `post` did; otherwise 1 |
| NostrScript.ExitStatusIgnoresFailedPost | nostr.py:221-233 | as written: when the relays fail `post` does not publish, yet the script's exit status is 0 |
| NostrScript.IntendedExitStatus | nostr.py:221-233 | the status is 0 exactly when the entry parsed, the key was accepted and the note is on Nostr (`post` published it, or found it already posted); otherwise 1 |
| HnfPoster.LoadPostedCache | hnfPoster.js:19-29 | `[]` for a missing, blank or unparsable file and for a missing or falsy `posted` field; otherwise the `posted` field of the parsed object |
| HnfPoster.SavePostedCache | hnfPoster.js:31-33 | the document is the object whose only key `posted` holds the list |
| HnfPoster.LoadSaveRoundTrip | hnfPoster.js:24-32 | reading a written posted.json gives back the saved list, whatever the layout |
| HnfPoster.NewSet | hnfPoster.js:80 | `new Set(value)` succeeds exactly on an array, a string or `null`; the result is `Dedup` of the array's elements or of the string's characters (first occurrences in order, the array itself when it has no duplicates), or nothing for `null` |
| HnfPoster.Message | hnfPoster.js:59-60 | the message starts with the author and names the title (or "undefined") and the link |
| HnfPoster.Event | hnfPoster.js:69-75 | a kind-1 event with no tags, the message as content, stamped with the clock in whole seconds |
| HnfPoster.HnfItem | hnfPoster.js:84-87 | skip exactly the items with no link or a known link; an attempted step is about the item's link; it throws exactly when a configured call throws; the link is added exactly when nothing threw |
| HnfPoster.HnfItemFacts | hnfPoster.js:59-76 | for an attempted item: a tweet exactly when Twitter is configured, the message cut by the 277 + "..." rule to at most 280 characters; a note exactly when Nostr is configured and the tweet did not throw, the `Event` of the same message at the item's clock time: kind 1, no tags, naming the link |
| HnfPoster.PostHnfItem | hnfPoster.js:84-87 | the loop body gives the new set and step of `HnfItem` |
| HnfPoster.HnfRunTo | hnfPoster.js:83-88 | after k items a loop that has not thrown has one step per item, and never more; the loaded set stays a prefix |
| HnfPoster.HnfRunDistinct | hnfPoster.js:80-87 | the set stays duplicate-free at every point of the run |
| HnfPoster.AbortSticks | hnfPoster.js:83-88 | once a call has thrown, later items change nothing |
| HnfPoster.HnfBot | hnfPoster.js:79-92 | the load throws exactly when the loaded value is not an array, a string or `null`; a finished run has one step per item and keeps the loaded set as a prefix |
| HnfPoster.RunHnfBot | hnfPoster.js:79-92 | the run's outcome (load threw, loop threw, or finished with the written document) is that of the fold over the loaded set |
| HnfPoster.AttemptedStep | hnfPoster.js:84-87 | one more item that does not throw keeps the set equal to the loaded one followed by every attempted link |
| HnfPoster.HnfRunPosted | hnfPoster.js:83-88 | at any point without a throw, the set is the loaded one followed by every attempted link, and no step threw; a thrown run ends with the step that threw |
| HnfPoster.FinishedWritesAttempted | hnfPoster.js:79-90 | a finished run writes the loaded set plus every attempted link, after one step per item with no throw; a loop that threw ends on the throwing step; a load that threw had neither an array nor a string |
| HnfPoster.HnfSkipsKnownLinks | hnfPoster.js:84 | items without a link or with a loaded link are skipped; an attempted link is the item's and was not loaded |
| HnfPoster.HnfRunCoversFeed | hnfPoster.js:83-88 | after the first k items without a throw, each of their links is in the set |
| HnfPoster.HnfKnownFeedIsSkipped | hnfPoster.js:84 | from a set holding every item link, every item is skipped and the set is unchanged, at every point of the run |
| HnfPoster.HnfRunAgainIsQuiet | hnfPoster.js:79-90 | running again on the file a finished run wrote skips every item and writes the same document |
| NostrLib.PySet | lib/nostr.py:25-27 | `set(value)`: the elements of a list of hashable values, the characters of a string, the keys of a dict; it raises for anything else or for a list holding a list or a dict; the result holds only hashable values |
| NostrLib.LineItems | lib/nostr.py:32 | a value is kept exactly when it is a non-empty string that is the stripped form of some line |
| NostrLib.Content | lib/nostr.py:17 | the content read is the text-mode text stripped of Python whitespace at both ends: it holds no carriage return and only characters of the translated text |
| NostrLib.LoadPostedItems | lib/nostr.py:10-34 | the empty set for a missing or blank file; the set of a JSON list, or of a dict's `posted_items` (empty when building it raises); otherwise, including JSON of another shape, the stripped lines |
| NostrLib.LoadedItemsAreHashable | lib/nostr.py:22-34 | whatever the file holds, the loaded set holds only hashable values |
| NostrLib.SavePostedItems | lib/nostr.py:36-46 | the document has exactly the keys `posted_items` (the list) and `last_updated` (the timestamp) |
| NostrLib.LoadSaveRoundTrip | lib/nostr.py:26-44 | reading a saved file gives back the saved set, whatever the layout or timestamp |
| NostrLib.NatDigitsRoundTrip | lib/nostr.py:54 | reading back the decimal digits of a natural number gives the number |
| NostrLib.DecimalString | lib/nostr.py:54 | `str(i)` is non-empty: digits, after a minus sign exactly when `i` is negative, with no leading zero (only 0 itself is "0", and there is no "-0"); with `DecimalRoundTrip` this fixes the text |
| NostrLib.DecimalRoundTrip | lib/nostr.py:54 | `int(str(i)) == i` |
| NostrLib.GetItemId | lib/nostr.py:48-54 | "" for a missing id; a string id itself; an integer id its decimal text; True, False and None print as their names |
| NostrLib.IntIdsAreDistinct | lib/nostr.py:54 | different integer ids never share a key |
| NostrLib.PostToNostrSafe | lib/nostr.py:59-90 | the wrapped function is called exactly when the id is not already recorded; a known id writes nothing and returns False (or raises when the title cannot be sliced); otherwise the file is written exactly when the wrapped call returns a truthy value, with the loaded set plus the id listed once each; the call returns True only then, and only when the title can be sliced |
| NostrLib.RecordedIdIsSkipped | lib/nostr.py:70-81 | reading the file written after recording an id gives the loaded items plus that id, so the id is found |
| NostrLib.LoadListed | lib/nostr.py:22-27 | a written posted-items document loads back as the set it lists, whatever the layout |
| NostrLib.PostTwice | lib/nostr.py:59-83 | once a call has recorded an id, a second call for it on the written file does not call the wrapped function, writes nothing and does not return True |
| NostrLib.NostrPoster.constructor | lib/nostr.py:141-148 | the poster keeps the relay list it was given; the list stands for the relay setup and nothing reads it |
| NostrLib.NostrPoster.BuildNostrEntry | lib/nostr.py:150-151 | a note exists exactly when author, title and link are present; it starts with "@" and the author and contains the title and the link |
| NostrLib.NostrPoster.Post | lib/nostr.py:153-174 | on publication the link is added to the caller's set; posted.txt is then rewritten as every member once, each followed by a newline, which loads back to the set for clean links, and True is returned; when posted.txt cannot be opened the link stays added, the file is untouched and False is returned; without publication both are untouched and False is returned |

## Left out

- Network and process I/O is replaced by its outcomes. This covers the gist API, the RSS fetch, the
  Twitter client, the relay manager, the nostrhttp wrapper and the `spawn` of python3.
- Signing and private-key parsing are left out. `relaysOk` and `publishReturns` stand for
  "signing and publishing returned".
- The regular expressions are left out. Each item starts from the capture groups, absent when a
  pattern did not match.
- `Math.random` becomes a format index parameter, and `random.choice` the chosen template.
- D_Poster.js draws the Nostr format with a second call to `getRandomMessageFormat` (D_Poster.js:104),
  although its comment says the tweet's format is reused; the model follows the code, with two picks.
- DPoster.ProcessItem: the step records the outcome, not the tweet and entry sent; `ItemMessages`
  states those separately.
- NostrScript.NostrPoster.Post: the template is a parameter and need not be one of `TEMPLATES`;
  `TemplatesTagAuthor` gives the `@author` tag for each of the 44.
- Logging is left out, as are the 210-second pause and the 1.25-second pause after relay setup (nostr.py:44, lib/nostr.py:148).
- The environment-variable checks at start-up (D_Poster.js:16-21) are left out.
- lib/nostr.js is not part of this model. Nor is the empty `post_to_nostr_original` stub of
  lib/nostr.py:95-101; its result is a parameter.
- The two `__main__` blocks of lib/nostr.py are left out. The first (lib/nostr.py:106-109) does
  nothing. The second (lib/nostr.py:179-189) repeats nostr.py's.
- DPoster.RunDBot: does not model the exceptions thrown when fetching or updating the gist fails
  (D_Poster.js:27, D_Poster.js:47). These end the run.
- DPoster.ProcessItem: Nostr success is "the exit code is 0", and a process killed by a signal
  (`code` null) counts as "not 0". A `spawn` that fails (no `python3`, say) is not modelled:
  D_Poster.js:112-118 registers no `'error'` listener, so the unhandled `'error'` event ends the
  bot process.
- DPoster.ProcessItem: treats the Twitter error `detail` as an optional string. A non-string
  `detail` is not modelled.
- NostrScript.ExitStatusIgnoresFailedPost: models the exit status on three conditions. The usage
  branch (no argument, status 0) is not modelled.
- JSON parsing and serialisation are not modelled. A stored file carries the parser's verdict on
  its text.
- Only integer JSON numbers are modelled, not floats.
- Python's equality of `True` with `1` inside a set is not modelled.
- Non-string values in the nostr.py entry are not modelled; there `None` means the key is absent.
- HnfPoster.NewSet: merges arrays or objects that are equal by value. JavaScript keeps each parsed
  object as a distinct element.
- Tweet.Truncate: counts characters (code points), not the UTF-16 code units of
  JavaScript's `length` and `slice`.
- NostrLib.GetItemId: does not model float, list or dict ids.
- NostrLib.LoadPostedItems: a file that cannot be decoded as UTF-8 loads as the empty set; decoding
  is not modelled.
- NostrLib.PostToNostrSafe: does not model `save_posted_items` swallowing a write error.
- NostrScript.NostrPoster.Post: models a `save_posted_cache` that cannot open posted.txt, but not
  one that fails after opening it. Such a failure leaves a truncated or partly written file.
- NostrLib.NostrPoster.Post: the same for its `save_posted_cache` (lib/nostr.py:168-170). An
  error after opening posted.txt is not modelled.
- HnfPoster.RunHnfBot: does not model a write error of `savePostedCache`.
- The Twitter and Nostr clients' own retries and timeouts are not modelled.

## Findings

| source | as written | input that shows it | evidently intended | confidence | as-written member | corrected member |
|---|---|---|---|---|---|---|
| nostr.py:221-233 | the script ignores what `post` returns, so its exit status is 0 even when nothing was published. D_Poster.js:139-147 reads exit status 0 as "posted to Nostr" and records the link in the gist | an entry with a fresh link while the relays raise on publish, and Twitter rejecting the tweet: nothing is published, yet the link is recorded and never retried | exit status 0 only when the note is on Nostr (`post` returned True, or found the link already posted), so a link is recorded only when some platform has published it | not executed | DPoster.UnpublishedLinkIsRecorded | DPoster.RecordedOnlyWhenPublished |

=== FILE: collections.dfy ===
/** Sequences standing for the collections of the two source languages: a
    JavaScript `Set` keeps its elements in insertion order, so it is a
    duplicate-free sequence; iterating over a Python `set` visits every
    element once in an order the program does not choose. */
module Collections {

  /** No element occurs twice. */
  predicate Distinct<T(==)>(xs: seq<T>) {
    forall i, j :: 0 <= i < j < |xs| ==> xs[i] != xs[j]
  }

  /** The elements of `xs` as a set. */
  function Elements<T>(xs: seq<T>): set<T> {
    set x | x in xs
  }

  lemma ElementsSnoc<T>(xs: seq<T>, x: T)
    ensures Elements(xs + [x]) == Elements(xs) + {x}
  {
    assert forall y :: y in xs + [x] <==> y in xs || y == x;
  }

  /** The two halves of a duplicate-free concatenation are duplicate-free
      and share no element. */
  lemma DistinctAppend<T>(a: seq<T>, b: seq<T>)
    requires Distinct(a + b)
    ensures Distinct(b)
    ensures forall x :: x in b ==> x !in a
  {
    forall i, j | 0 <= i < j < |b|
      ensures b[i] != b[j]
    {
      assert b[i] == (a + b)[|a| + i] && b[j] == (a + b)[|a| + j];
    }
    forall i, j | 0 <= i < |a| && 0 <= j < |b|
      ensures a[i] != b[j]
    {
      assert a[i] == (a + b)[i] && b[j] == (a + b)[|a| + j];
    }
  }

  /** Appending a new element keeps a sequence free of duplicates. */
  lemma DistinctSnoc<T>(xs: seq<T>, x: T)
    requires Distinct(xs) && x !in xs
    ensures Distinct(xs + [x])
  {
    forall i, j | 0 <= i < j < |xs| + 1
      ensures (xs + [x])[i] != (xs + [x])[j]
    {
      assert (xs + [x])[i] == xs[i];
      if j == |xs| {
        assert (xs + [x])[j] == x;
      } else {
        assert (xs + [x])[j] == xs[j];
      }
    }
  }

  /** The index of the first occurrence of `x` in `xs`. */
  function FirstIndex<T(==)>(xs: seq<T>, x: T): (i: nat)
    requires x in xs
    ensures i < |xs| && xs[i] == x && x !in xs[..i]
  {
    if xs[0] == x then 0
    else
      var i := 1 + FirstIndex(xs[1..], x);
      assert xs[..i] == [xs[0]] + xs[1..][..i - 1];
      i
  }

  /** An occurrence with no earlier one is the first. */
  lemma FirstIndexUnique<T>(xs: seq<T>, x: T, i: nat)
    requires i < |xs| && xs[i] == x && x !in xs[..i]
    ensures FirstIndex(xs, x) == i
  {
    if i > 0 {
      assert xs[0] == xs[..i][0];
      assert xs[1..][..i - 1] == xs[..i][1..];
      FirstIndexUnique(xs[1..], x, i - 1);
    }
  }

  /** Appending leaves the first occurrences of earlier elements where they
      were, and puts a new element's first occurrence at the end. */
  lemma FirstIndexSnoc<T>(xs: seq<T>, x: T, y: T)
    requires y in xs + [x]
    ensures y in xs ==> FirstIndex(xs + [x], y) == FirstIndex(xs, y)
    ensures y !in xs ==> FirstIndex(xs + [x], y) == |xs|
  {
    var ys := xs + [x];
    if y in xs {
      var i := FirstIndex(xs, y);
      assert ys[..i] == xs[..i];
      FirstIndexUnique(ys, y, i);
    } else {
      assert ys[..|xs|] == xs;
      FirstIndexUnique(ys, y, |xs|);
    }
  }

  /** `new Set(xs)` in JavaScript: the first occurrence of each element, in
      the order of `xs`. */
  function Dedup<T(==)>(xs: seq<T>): (r: seq<T>)
    ensures Distinct(r)
    ensures Elements(r) == Elements(xs)
    ensures forall k :: 0 <= k < |r| ==> r[k] in xs
    ensures forall i, j :: 0 <= i < j < |r| ==> FirstIndex(xs, r[i]) < FirstIndex(xs, r[j])
    ensures Distinct(xs) ==> r == xs
  {
    if xs == [] then []
    else
      var init, x := xs[..|xs| - 1], xs[|xs| - 1];
      var d := Dedup(init);
      LastSplit(xs);
      DedupSnoc(init, x, d);
      if x in d then d else d + [x]
  }

  /** One more element: the elements part of `Dedup`'s contract carries over
      from `init` to `init + [x]`. */
  lemma DedupSnoc<T>(init: seq<T>, x: T, d: seq<T>)
    requires Distinct(d) && Elements(d) == Elements(init)
    requires forall k :: 0 <= k < |d| ==> d[k] in init
    requires forall i, j :: 0 <= i < j < |d| ==> FirstIndex(init, d[i]) < FirstIndex(init, d[j])
    requires Distinct(init) ==> d == init
    ensures var r := if x in d then d else d + [x];
      Distinct(r) && Elements(r) == Elements(init + [x]) && (forall k :: 0 <= k < |r| ==> r[k] in init + [x]) &&
      (Distinct(init + [x]) ==> r == init + [x])
    ensures var r := if x in d then d else d + [x];
      forall i, j :: 0 <= i < j < |r| ==> FirstIndex(init + [x], r[i]) < FirstIndex(init + [x], r[j])
  {
    var r := if x in d then d else d + [x];
    ElementsSnoc(init, x);
    ElementsSnoc(d, x);
    if x !in d {
      DistinctSnoc(d, x);
    }
    if Distinct(init + [x]) {
      DistinctAppend(init, [x]);
      assert (init + [x])[..|init|] == init;
      DistinctPrefix(init + [x], |init|);
    }
    DedupOrderSnoc(init, x, d, r);
  }

  /** A non-empty sequence is its front followed by its last element. */
  lemma LastSplit<T>(xs: seq<T>)
    requires xs != []
    ensures xs == xs[..|xs| - 1] + [xs[|xs| - 1]]
  {
  }

  /** A prefix of a duplicate-free sequence is duplicate-free. */
  lemma DistinctPrefix<T>(xs: seq<T>, n: nat)
    requires Distinct(xs) && n <= |xs|
    ensures Distinct(xs[..n])
  {
  }

  /** The step of `Dedup`'s order clause from `init` to `init + [x]`. */
  lemma DedupOrderSnoc<T>(init: seq<T>, x: T, d: seq<T>, r: seq<T>)
    requires Elements(d) == Elements(init)
    requires forall k :: 0 <= k < |d| ==> d[k] in init
    requires forall i, j :: 0 <= i < j < |d| ==> FirstIndex(init, d[i]) < FirstIndex(init, d[j])
    requires r == if x in d then d else d + [x]
    ensures forall k :: 0 <= k < |r| ==> r[k] in init + [x]
    ensures forall i, j :: 0 <= i < j < |r| ==> FirstIndex(init + [x], r[i]) < FirstIndex(init + [x], r[j])
  {
    forall k | 0 <= k < |d|
      ensures d[k] in init && FirstIndex(init + [x], d[k]) == FirstIndex(init, d[k])
    {
      FirstIndexSnoc(init, x, d[k]);
    }
    if x !in d {
      assert x !in Elements(init);
      FirstIndexSnoc(init, x, x);
      forall i, j | 0 <= i < j < |r|
        ensures FirstIndex(init + [x], r[i]) < FirstIndex(init + [x], r[j])
      {
        assert r[i] == d[i];
        if j == |d| {
          assert r[j] == x;
        } else {
          assert r[j] == d[j];
        }
      }
    }
  }

  /** A `for x in s` loop over a Python set, or `list(s)`: every element once,
      in whatever order the iteration takes. */
  method Enumerate<T(==)>(s: set<T>) returns (xs: seq<T>)
    ensures Distinct(xs)
    ensures Elements(xs) == s
  {
    xs := [];
    var rest := s;
    while rest != {}
      invariant rest <= s
      invariant Distinct(xs)
      invariant Elements(xs) == s - rest
      decreases rest
    {
      var x :| x in rest;
      ElementsSnoc(xs, x);
      xs := xs + [x];
      rest := rest - {x};
    }
  }
}

=== FILE: d_poster.dfy ===
/** D_Poster.js: the Design bot. It loads the set of posted links from a
    gist, walks the feed items in order, skips those without a link or
    already posted, tries Twitter and then Nostr (through nostr.py), and
    records the link and rewrites the gist as soon as one platform
    reported success. Network calls are replaced by their outcomes, given
    per item in an `ItemEnv`. */
module DPoster {
  import opened Wrappers
  import opened Strings
  import opened Collections
  import opened Template
  import opened Feed
  import opened Tweet
  import NostrScript

  /** The referral suffix appended to every link before it is published. */
  const REFERRAL_SUFFIX := "/r/deSign_r"

  // ---------------------------------------------------------------------
  // The gist file posted.txt

  /** `loadPostedCache`: the content of the gist's posted.txt (an empty
      string when the file entry is missing), split into lines, trimmed,
      empty lines dropped, collected into a Set (first occurrences in
      order). */
  function LoadPostedCache(content: Option<string>): (posted: seq<string>)
    ensures Distinct(posted)
    ensures content.None? ==> posted == []
  {
    var lines := NonBlankLines(Split(content.GetOr(""), '\n'), JS_SPACE);
    assert content.None? ==> lines == [] by {
      if content.None? {
        NoLinesInEmpty();
      }
    }
    Dedup(lines)
  }

  /** A string is loaded exactly when it is a non-empty trimmed line of the
      content. */
  lemma LoadedLinks(content: Option<string>)
    ensures forall x :: x in LoadPostedCache(content) <==>
              x != "" && exists l :: l in Split(content.GetOr(""), '\n') && Strip(l, JS_SPACE) == x
  {
    var lines := NonBlankLines(Split(content.GetOr(""), '\n'), JS_SPACE);
    var posted := LoadPostedCache(content);
    assert posted == Dedup(lines);
    NonBlankMembers(Split(content.GetOr(""), '\n'), JS_SPACE);
    forall x
      ensures x in posted <==> x in lines
    {
      assert x in posted <==> x in Elements(posted);
      assert x in lines <==> x in Elements(lines);
    }
  }

  lemma NoLinesInEmpty()
    ensures NonBlankLines(Split("", '\n'), JS_SPACE) == []
  {
    assert Split("", '\n') == [""];
    assert [""][1..] == [];
  }

  /** `savePostedCache`: the links joined by newlines, plus a final newline,
      so the content ends with a newline and each link is followed by one. */
  function SavePostedCache(posted: seq<string>): (content: string)
    ensures EndsWith(content, "\n")
    ensures posted == [] ==> content == "\n"
    ensures posted != [] ==> content == Terminated(posted, '\n')
  {
    var content := Join(posted, '\n') + "\n";
    if posted == [] then content
    else
      JoinTerminated(posted, '\n');
      content
  }

  /** A link that the gist stores and gives back unchanged. */
  predicate GistLink(x: string) {
    CleanLine(x, JS_SPACE, '\n')
  }

  /** Every link loaded from the gist is a one-line, trimmed, non-empty
      string, so saving it again is lossless. */
  lemma LoadedLinksAreGistLinks(content: Option<string>)
    ensures forall x :: x in LoadPostedCache(content) ==> GistLink(x)
  {
    LoadedLinks(content);
    SplitPieces(content.GetOr(""), '\n');
    forall x | x in LoadPostedCache(content)
      ensures GistLink(x)
    {
      var l :| l in Split(content.GetOr(""), '\n') && Strip(l, JS_SPACE) == x;
      assert '\n' !in l;
    }
  }

  /** Saving and loading again gives back the same links in the same order. */
  lemma GistRoundTrip(posted: seq<string>)
    requires Distinct(posted)
    requires forall x :: x in posted ==> GistLink(x)
    ensures LoadPostedCache(Some(SavePostedCache(posted))) == posted
  {
    var lines := Split(SavePostedCache(posted), '\n');
    if posted == [] {
      assert SavePostedCache(posted) == [] + ['\n'] + [];
      SplitAfterPiece([], [], '\n');
      assert lines == [""] + [""];
      NonBlankOfClean([], JS_SPACE, '\n');
      assert NonBlankLines(lines, JS_SPACE) == NonBlankLines([""], JS_SPACE);
    } else {
      SplitTerminated(posted, '\n');
      assert forall i :: 0 <= i < |posted| ==> posted[i] in posted;
      NonBlankOfClean(posted, JS_SPACE, '\n');
    }
  }

  // ---------------------------------------------------------------------
  // Message shaping

  /** An index `Math.floor(Math.random() * formats.length)` can produce. */
  type FormatIndex = i: nat | i < 4

  /** The four formats of `getRandomMessageFormat`, in order. Each opens
      with fixed text and writes `@` right before the author. */
  function Format(idx: FormatIndex): (s: Shape)
    ensures s.lead != "" && TagsAuthor(s)
  {
    if idx == 0 then Shape("@", true, " just posted \"", "\" in #Design. Read more ", "")
    else if idx == 1 then Shape("You should not miss @", true, " posting \"", "\" on #Design. Click ", "")
    else if idx == 2 then Shape("This is really an active post \"", false, "\" by @", " on #Design. Join in at ", "")
    else Shape("Curious to know about \"", false, "\" by @", " in #Design? Learn more ", "")
  }

  /** `${value}` in a template literal: an undefined value prints as
      "undefined". */
  function Interpolated(value: Option<string>): string {
    value.GetOr("undefined")
  }

  /** `getRandomMessageFormat` with the random pick `idx`. Every format names
      the author, the title and the link, tags the author with `@`, and opens
      with its own fixed text, so the message is never empty. */
  function MessageFormat(idx: FormatIndex, title: Option<string>, link: string, author: string): (m: string)
    ensures Contains(m, author) && Contains(m, Interpolated(title)) && Contains(m, link)
    ensures Contains(m, "@" + author)
    ensures StartsWith(m, Format(idx).lead) && m != ""
  {
    var fields := Fields(author, Interpolated(title), link);
    RenderShowsFields(Format(idx), fields);
    RenderTagsAuthor(Format(idx), fields);
    Render(Format(idx), fields)
  }

  /** `link.endsWith('/r/deSign_r') ? link : link + '/r/deSign_r'`. */
  function DecorateLink(link: string): (full: string)
    ensures EndsWith(full, REFERRAL_SUFFIX)
    ensures StartsWith(full, link)
    ensures EndsWith(link, REFERRAL_SUFFIX) ==> full == link
  {
    if EndsWith(link, REFERRAL_SUFFIX) then link else link + REFERRAL_SUFFIX
  }

  /** Decorating twice is decorating once: the suffix is never doubled. */
  lemma DecorateLinkIdempotent(link: string)
    ensures DecorateLink(DecorateLink(link)) == DecorateLink(link)
  {
  }

  /** The text `postToTwitter` tweets: the chosen format over the decorated
      link, cut to 280 characters. */
  function TweetText(idx: FormatIndex, title: Option<string>, link: string, author: string): (text: string)
    ensures |text| <= TWEET_LIMIT
    ensures var m := MessageFormat(idx, title, DecorateLink(link), author);
      (|m| <= TWEET_LIMIT ==> text == m) &&
      (|m| > TWEET_LIMIT ==> text == m[..TWEET_LIMIT - |ELLIPSIS|] + ELLIPSIS)
  {
    Truncate(MessageFormat(idx, title, DecorateLink(link), author))
  }

  /** The JSON entry `postToNostr` hands to nostr.py: title (dropped by
      `JSON.stringify` when undefined), decorated link, author, and a
      message drawn independently of the tweet's. */
  function NostrEntry(idx: FormatIndex, title: Option<string>, link: string, author: string)
    : (entry: NostrScript.Entry)
    ensures entry.link == Some(DecorateLink(link)) && entry.message.Some?
    ensures entry.message.value != ""
    ensures entry.title == title && entry.author == Some(author)
    ensures entry.message == Some(MessageFormat(idx, title, DecorateLink(link), author))
  {
    var full := DecorateLink(link);
    NostrScript.Entry(title, Some(full), Some(author), Some(MessageFormat(idx, title, full, author)))
  }

  /** nostr.py publishes the message it is handed, word for word, whatever
      template it would otherwise have picked. */
  lemma NostrPublishesTheGivenMessage(idx: FormatIndex, title: Option<string>, link: string, author: string,
                                      template: Shape)
    ensures NostrScript.NostrPoster.BuildNostrEntry(NostrEntry(idx, title, link, author), template) ==
              NostrEntry(idx, title, link, author).message
  {
  }

  // ---------------------------------------------------------------------
  // The run loop

  /** Twitter's answer to `client.v2.tweet` when it is called. */
  datatype TwitterReply = Accepted | Rejected(detail: Option<string>)

  /** `e?.data?.detail?.includes('duplicate')`: the rejection is logged as a
      duplicate to skip rather than as an error; either way the tweet did
      not succeed. */
  predicate DuplicateRejection(reply: TwitterReply) {
    reply.Rejected? && reply.detail.Some? && Contains(reply.detail.value, "duplicate")
  }

  /** What the outside world does for one feed item: the two random format
      picks, Twitter's reply, and the exit code of the nostr.py process. */
  datatype ItemEnv = ItemEnv(tweetFormat: FormatIndex, nostrFormat: FormatIndex, reply: TwitterReply,
                             nostrExit: int)

  /** What the loop did with one item. An attempted item records its link,
      the two success flags, and the gist content written afterwards (none
      when neither platform succeeded). */
  datatype Step =
    | Skipped
    | Attempted(link: string, tweeted: bool, nostrPosted: bool, saved: Option<string>)
  {
    predicate Succeeded() {
      Attempted? && (tweeted || nostrPosted)
    }
  }

  datatype ItemOutcome = ItemOutcome(posted: seq<string>, step: Step)

  /** One pass of the `for` body of `runDBot`. */
  function ProcessItem(posted: seq<string>, item: FeedItem, env: ItemEnv, twitterOn: bool): (r: ItemOutcome)
    ensures r.step.Skipped? <==> !Truthy(item.link) || item.link.value in posted
    ensures r.step.Attempted? ==> r.step.link == item.link.value
    ensures r.posted == if r.step.Succeeded() then posted + [item.link.value] else posted
  {
    if !Truthy(item.link) || item.link.value in posted then ItemOutcome(posted, Skipped)
    else
      var link := item.link.value;
      var tweeted := !twitterOn || env.reply.Accepted?;
      var nostrPosted := env.nostrExit == 0;
      if tweeted || nostrPosted then
        var posted' := posted + [link];
        ItemOutcome(posted', Attempted(link, tweeted, nostrPosted, Some(SavePostedCache(posted'))))
      else
        ItemOutcome(posted, Attempted(link, tweeted, nostrPosted, None))
  }

  /** What an attempted item did: a missing Twitter key counts as a success;
      a duplicate rejection is not a success; the Nostr outcome is the exit
      code of nostr.py; the gist is saved, with the new posted links, exactly
      when one of the platforms succeeded. */
  lemma ProcessItemFacts(posted: seq<string>, item: FeedItem, env: ItemEnv, twitterOn: bool)
    ensures var r := ProcessItem(posted, item, env, twitterOn);
      r.step.Attempted? ==>
        (r.step.saved.Some? <==> r.step.Succeeded()) &&
        (r.step.saved.Some? ==> r.step.saved.value == SavePostedCache(r.posted)) &&
        (r.step.tweeted <==> !twitterOn || env.reply.Accepted?) &&
        (twitterOn && DuplicateRejection(env.reply) ==> !r.step.tweeted) &&
        (r.step.nostrPosted <==> env.nostrExit == 0)
  {
  }

  /** The messages the loop body hands out for an attempted item: the tweet
      (none when Twitter is not configured) and the entry for nostr.py. */
  datatype Messages = Messages(tweet: Option<string>, entry: NostrScript.Entry)

  /** The tweet is sent only when Twitter is configured and fits in 280
      characters; nostr.py is given the decorated link and a message. */
  function ItemMessages(link: string, item: FeedItem, env: ItemEnv, twitterOn: bool): (m: Messages)
    ensures m.tweet.Some? <==> twitterOn
    ensures m.tweet.Some? ==> |m.tweet.value| <= TWEET_LIMIT
    ensures m.entry.link == Some(DecorateLink(link)) && m.entry.message.Some? && m.entry.message.value != ""
    ensures m.tweet.Some? ==> m.tweet.value == TweetText(env.tweetFormat, item.title, link, item.author)
    ensures m.entry == NostrEntry(env.nostrFormat, item.title, link, item.author)
  {
    var tweet := if twitterOn then Some(TweetText(env.tweetFormat, item.title, link, item.author)) else None;
    Messages(tweet, NostrEntry(env.nostrFormat, item.title, link, item.author))
  }

  datatype RunState = RunState(posted: seq<string>, trace: seq<Step>)

  /** The state after processing the first `k` items in order, starting
      from `init`. */
  function RunTo(init: seq<string>, items: seq<FeedItem>, env: seq<ItemEnv>, twitterOn: bool, k: nat): (r: RunState)
    requires |env| == |items| && k <= |items|
    ensures |r.trace| == k
    ensures init <= r.posted
  {
    if k == 0 then RunState(init, [])
    else
      var before := RunTo(init, items, env, twitterOn, k - 1);
      var o := ProcessItem(before.posted, items[k - 1], env[k - 1], twitterOn);
      RunState(o.posted, before.trace + [o.step])
  }

  /** The state after processing every item of the feed. */
  function Run(init: seq<string>, items: seq<FeedItem>, env: seq<ItemEnv>, twitterOn: bool): RunState
    requires |env| == |items|
  {
    RunTo(init, items, env, twitterOn, |items|)
  }

  /** The posted links never repeat when the loaded ones do not: a link is
      only added when it is not posted yet. */
  lemma {:induction false} RunDistinct(init: seq<string>, items: seq<FeedItem>, env: seq<ItemEnv>, twitterOn: bool,
                                       k: nat)
    requires |env| == |items| && k <= |items| && Distinct(init)
    ensures Distinct(RunTo(init, items, env, twitterOn, k).posted)
  {
    if k > 0 {
      RunDistinct(init, items, env, twitterOn, k - 1);
      var p := RunTo(init, items, env, twitterOn, k - 1).posted;
      var o := ProcessItem(p, items[k - 1], env[k - 1], twitterOn);
      if o.posted != p {
        DistinctSnoc(p, items[k - 1].link.value);
      }
    }
  }

  /** The links a run adds, in the order it adds them. */
  function AddedLinks(trace: seq<Step>): seq<string> {
    if trace == [] then []
    else
      var last := trace[|trace| - 1];
      AddedLinks(trace[..|trace| - 1]) + (if last.Succeeded() then [last.link] else [])
  }

  /** The content of posted.txt once the run is over: the last content saved,
      or the content loaded when nothing was saved. */
  function GistAfter(gist: Option<string>, trace: seq<Step>): Option<string> {
    if trace == [] then gist
    else
      var last := trace[|trace| - 1];
      if last.Attempted? && last.saved.Some? then last.saved else GistAfter(gist, trace[..|trace| - 1])
  }

  /** The step recorded for item `i` is what the loop body does with that
      item, given the links posted by the items before it. */
  lemma {:induction false} RunStepAt(init: seq<string>, items: seq<FeedItem>, env: seq<ItemEnv>,
                                     twitterOn: bool, k: nat, i: nat)
    requires |env| == |items| && i < k <= |items|
    ensures RunTo(init, items, env, twitterOn, k).trace[i] ==
              ProcessItem(RunTo(init, items, env, twitterOn, i).posted, items[i], env[i], twitterOn).step
  {
    var before := RunTo(init, items, env, twitterOn, k - 1);
    var o := ProcessItem(before.posted, items[k - 1], env[k - 1], twitterOn);
    assert RunTo(init, items, env, twitterOn, k).trace == before.trace + [o.step];
    if i < k - 1 {
      RunStepAt(init, items, env, twitterOn, k - 1, i);
      assert (before.trace + [o.step])[i] == before.trace[i];
    } else {
      assert (before.trace + [o.step])[i] == o.step;
    }
  }

  /** One pass of the loop body adds to the posted links exactly the link
      `AddedLinks` records for its step. */
  lemma AddedStep(init: seq<string>, posted: seq<string>, trace: seq<Step>, item: FeedItem, env: ItemEnv,
                  twitterOn: bool)
    requires posted == init + AddedLinks(trace)
    ensures var o := ProcessItem(posted, item, env, twitterOn);
      o.posted == init + AddedLinks(trace + [o.step])
  {
    var o := ProcessItem(posted, item, env, twitterOn);
    var t := trace + [o.step];
    assert t[..|t| - 1] == trace && t[|t| - 1] == o.step;
  }

  /** The posted links after a run are the loaded ones followed by the link
      of every item for which Twitter or Nostr succeeded, in feed order. */
  lemma {:induction false} RunPosted(init: seq<string>, items: seq<FeedItem>, env: seq<ItemEnv>, twitterOn: bool,
                                     k: nat)
    requires |env| == |items| && k <= |items|
    ensures RunTo(init, items, env, twitterOn, k).posted == init + AddedLinks(RunTo(init, items, env, twitterOn, k).trace)
  {
    if k > 0 {
      var before := RunTo(init, items, env, twitterOn, k - 1);
      RunPosted(init, items, env, twitterOn, k - 1);
      AddedStep(init, before.posted, before.trace, items[k - 1], env[k - 1], twitterOn);
    }
  }

  /** Within one run no link is published twice, and no link loaded from the
      gist is published again. */
  lemma RunNoDoublePost(init: seq<string>, items: seq<FeedItem>, env: seq<ItemEnv>, twitterOn: bool)
    requires |env| == |items|
    requires Distinct(init)
    ensures Distinct(AddedLinks(Run(init, items, env, twitterOn).trace))
    ensures forall x :: x in AddedLinks(Run(init, items, env, twitterOn).trace) ==> x !in init
  {
    RunPosted(init, items, env, twitterOn, |items|);
    RunDistinct(init, items, env, twitterOn, |items|);
    DistinctAppend(init, AddedLinks(Run(init, items, env, twitterOn).trace));
  }

  /** Items without a link, or whose link was loaded from the gist, are
      skipped; every attempted item is one with a fresh link. */
  lemma RunSkipsKnownLinks(init: seq<string>, items: seq<FeedItem>, env: seq<ItemEnv>, twitterOn: bool, i: nat)
    requires |env| == |items| && i < |items|
    ensures var s := Run(init, items, env, twitterOn).trace[i];
      (!Truthy(items[i].link) || items[i].link.value in init ==> s.Skipped?) &&
      (s.Attempted? ==> s.link == items[i].link.value && s.link !in init)
  {
    RunStepAt(init, items, env, twitterOn, |items|, i);
    var before := RunTo(init, items, env, twitterOn, i).posted;
    assert before[..|init|] == init;
    assert forall x :: x in init ==> x in before;
  }

  /** What each attempted step did: a missing Twitter key counts as a
      success; a duplicate rejection is not a success; the Nostr outcome is
      the exit code of nostr.py; the gist is saved exactly when one of the
      platforms succeeded. */
  lemma RunStepFacts(init: seq<string>, items: seq<FeedItem>, env: seq<ItemEnv>, twitterOn: bool, i: nat)
    requires |env| == |items| && i < |items|
    ensures var s := Run(init, items, env, twitterOn).trace[i];
      s.Attempted? ==>
        (s.tweeted <==> !twitterOn || env[i].reply.Accepted?) &&
        (twitterOn && DuplicateRejection(env[i].reply) ==> !s.tweeted) &&
        (s.nostrPosted <==> env[i].nostrExit == 0) &&
        (s.saved.Some? <==> s.Succeeded()) &&
        (!twitterOn ==> s.Succeeded())
  {
    RunStepAt(init, items, env, twitterOn, |items|, i);
    ProcessItemFacts(RunTo(init, items, env, twitterOn, i).posted, items[i], env[i], twitterOn);
  }

  /** One pass of the loop body keeps the gist in step with the posted
      links. */
  lemma GistStep(gist: Option<string>, trace: seq<Step>, posted: seq<string>, item: FeedItem, env: ItemEnv,
                 twitterOn: bool)
    requires LoadPostedCache(GistAfter(gist, trace)) == posted
    requires Distinct(posted) && forall x :: x in posted ==> GistLink(x)
    requires Truthy(item.link) ==> GistLink(item.link.value)
    ensures var o := ProcessItem(posted, item, env, twitterOn);
      LoadPostedCache(GistAfter(gist, trace + [o.step])) == o.posted && forall x :: x in o.posted ==> GistLink(x)
  {
    var o := ProcessItem(posted, item, env, twitterOn);
    var t := trace + [o.step];
    assert t[..|trace|] == trace && t[|trace|] == o.step;
    if o.step.Attempted? && o.step.saved.Some? {
      ProcessItemFacts(posted, item, env, twitterOn);
      assert o.posted == posted + [item.link.value];
      assert item.link.value !in posted;
      DistinctSnoc(posted, item.link.value);
      GistRoundTrip(o.posted);
    } else {
      assert GistAfter(gist, t) == GistAfter(gist, trace);
      assert o.posted == posted;
    }
  }

  /** posted.txt holds what the bot believes it has posted: reading the
      gist back gives exactly the posted links, all of them one-line
      trimmed strings. */
  predicate GistInStep(gist: Option<string>, r: RunState) {
    LoadPostedCache(GistAfter(gist, r.trace)) == r.posted && forall x :: x in r.posted ==> GistLink(x)
  }

  /** Every link of the feed is a one-line trimmed string. */
  predicate FeedGistLinks(items: seq<FeedItem>) {
    forall i :: 0 <= i < |items| && Truthy(items[i].link) ==> GistLink(items[i].link.value)
  }

  /** posted.txt stays in step with the posted links at every point of the
      run, as long as the feed's links are one-line trimmed strings. */
  lemma {:induction false} RunGistMatchesPosted(gist: Option<string>, items: seq<FeedItem>, env: seq<ItemEnv>,
                                                twitterOn: bool, k: nat)
    requires |env| == |items| && k <= |items|
    requires FeedGistLinks(items)
    ensures GistInStep(gist, RunTo(LoadPostedCache(gist), items, env, twitterOn, k))
  {
    if k == 0 {
      LoadedLinksAreGistLinks(gist);
    } else {
      RunGistMatchesPosted(gist, items, env, twitterOn, k - 1);
      GistStepAt(gist, items, env, twitterOn, k);
    }
  }

  /** The `<guid>` pattern captures `(.*?)`, which holds no line terminator,
      so every link of the feed is a gist link and the gist keeps in step
      with the posted list over a whole run on that feed. */
  lemma CapturedFeedKeepsGist(gist: Option<string>, blocks: seq<ItemCaptures>, env: seq<ItemEnv>, twitterOn: bool)
    requires |env| == |blocks|
    requires forall i :: 0 <= i < |blocks| && blocks[i].link.Some? ==>
               Avoids(blocks[i].link.value, JS_LINE_TERMINATORS)
    ensures FeedGistLinks(ExtractItems(blocks))
    ensures GistInStep(gist, Run(LoadPostedCache(gist), ExtractItems(blocks), env, twitterOn))
  {
    var items := ExtractItems(blocks);
    forall i | 0 <= i < |items| && Truthy(items[i].link)
      ensures GistLink(items[i].link.value)
    {
      var c := blocks[i];
      assert items[i] == ExtractItem(c.link, c.title, c.atomName, c.plainName);
    }
    RunGistMatchesPosted(gist, items, env, twitterOn, |items|);
  }

  /** The step of `RunGistMatchesPosted` from `k - 1` items to `k`. */
  lemma GistStepAt(gist: Option<string>, items: seq<FeedItem>, env: seq<ItemEnv>, twitterOn: bool, k: nat)
    requires |env| == |items| && 0 < k <= |items|
    requires FeedGistLinks(items)
    requires GistInStep(gist, RunTo(LoadPostedCache(gist), items, env, twitterOn, k - 1))
    ensures GistInStep(gist, RunTo(LoadPostedCache(gist), items, env, twitterOn, k))
  {
    var init := LoadPostedCache(gist);
    var before := RunTo(init, items, env, twitterOn, k - 1);
    RunDistinct(init, items, env, twitterOn, k - 1);
    GistStep(gist, before.trace, before.posted, items[k - 1], env[k - 1], twitterOn);
  }

  /** Running the bot again over the same feed does nothing when every
      attempted item succeeded the first time: all items are skipped and the
      posted links stay as they are, whatever the platforms would answer. */
  lemma RunAgainIsQuiet(init: seq<string>, items: seq<FeedItem>, env: seq<ItemEnv>, env2: seq<ItemEnv>,
                        twitterOn: bool)
    requires |env| == |items| && |env2| == |items|
    requires forall i :: 0 <= i < |items| ==>
               var s := Run(init, items, env, twitterOn).trace[i]; s.Attempted? ==> s.Succeeded()
    ensures var p := Run(init, items, env, twitterOn).posted;
      Run(p, items, env2, twitterOn) == RunState(p, seq(|items|, _ => Skipped))
  {
    var p := Run(init, items, env, twitterOn).posted;
    RunCoversFeed(init, items, env, twitterOn, |items|);
    KnownFeedIsSkipped(p, items, env2, twitterOn, |items|);
  }

  /** The same from the gist itself: after a run on a feed of one-line
      trimmed links in which every attempt succeeded, the next run loads
      the gist that run left and skips every item. */
  lemma RunAgainFromGistIsQuiet(gist: Option<string>, items: seq<FeedItem>, env: seq<ItemEnv>,
                                env2: seq<ItemEnv>, twitterOn: bool)
    requires |env| == |items| && |env2| == |items|
    requires FeedGistLinks(items)
    requires forall i :: 0 <= i < |items| ==>
               var s := Run(LoadPostedCache(gist), items, env, twitterOn).trace[i]; s.Attempted? ==> s.Succeeded()
    ensures var r := Run(LoadPostedCache(gist), items, env, twitterOn);
      Run(LoadPostedCache(GistAfter(gist, r.trace)), items, env2, twitterOn) ==
        RunState(r.posted, seq(|items|, _ => Skipped))
  {
    RunGistMatchesPosted(gist, items, env, twitterOn, |items|);
    RunAgainIsQuiet(LoadPostedCache(gist), items, env, env2, twitterOn);
  }

  /** When every attempted item succeeded, every item link is posted. */
  lemma {:induction false} RunCoversFeed(init: seq<string>, items: seq<FeedItem>, env: seq<ItemEnv>, twitterOn: bool,
                                         k: nat)
    requires |env| == |items| && k <= |items|
    requires forall i :: 0 <= i < k ==>
               var s := RunTo(init, items, env, twitterOn, k).trace[i]; s.Attempted? ==> s.Succeeded()
    ensures forall i :: 0 <= i < k && Truthy(items[i].link) ==>
              items[i].link.value in RunTo(init, items, env, twitterOn, k).posted
  {
    if k > 0 {
      var before := RunTo(init, items, env, twitterOn, k - 1);
      var o := ProcessItem(before.posted, items[k - 1], env[k - 1], twitterOn);
      var r := RunTo(init, items, env, twitterOn, k);
      assert r == RunState(o.posted, before.trace + [o.step]);
      assert forall i :: 0 <= i < k - 1 ==> r.trace[i] == before.trace[i];
      assert r.trace[k - 1] == o.step;
      RunCoversFeed(init, items, env, twitterOn, k - 1);
      assert r.posted[..|before.posted|] == before.posted;
    }
  }

  /** A feed whose links are all posted already is skipped item by item. */
  lemma {:induction false} KnownFeedIsSkipped(p: seq<string>, items: seq<FeedItem>, env: seq<ItemEnv>, twitterOn: bool,
                                              k: nat)
    requires |env| == |items| && k <= |items|
    requires forall i :: 0 <= i < |items| && Truthy(items[i].link) ==> items[i].link.value in p
    ensures RunTo(p, items, env, twitterOn, k) == RunState(p, seq(k, _ => Skipped))
  {
    if k > 0 {
      KnownFeedIsSkipped(p, items, env, twitterOn, k - 1);
      assert seq(k - 1, _ => Skipped) + [Skipped] == seq(k, _ => Skipped);
    }
  }

  /** One pass of the `for` body of `runDBot`: skip the item when it has no
      link or its link is already posted; otherwise tweet (a missing Twitter
      key counts as success, a rejection does not), run nostr.py (exit code
      0 is success), and when either succeeded add the link and save the
      gist. The tweet and the entry handed out are `ItemMessages`; what
      Twitter and nostr.py answer comes in through `env`. */
  method PostItem(posted: seq<string>, item: FeedItem, env: ItemEnv, twitterOn: bool)
    returns (posted': seq<string>, step: Step)
    ensures ItemOutcome(posted', step) == ProcessItem(posted, item, env, twitterOn)
  {
    posted' := posted;
    if !Truthy(item.link) || item.link.value in posted {
      step := Skipped;
      return;
    }
    var link := item.link.value;
    var tweeted, nostrPosted := false, false;
    if !twitterOn || env.reply.Accepted? {
      tweeted := true;
    }
    if env.nostrExit == 0 {
      nostrPosted := true;
    }
    var saved: Option<string> := None;
    if tweeted || nostrPosted {
      posted' := posted + [link];
      saved := Some(SavePostedCache(posted'));
    }
    step := Attempted(link, tweeted, nostrPosted, saved);
  }

  /** The `for` loop of `runDBot` over the feed items, from the posted links
      `init`. The posted links only grow and never repeat. */
  method RunLoop(init: seq<string>, items: seq<FeedItem>, env: seq<ItemEnv>, twitterOn: bool)
    returns (posted: seq<string>, trace: seq<Step>)
    requires |env| == |items|
    requires Distinct(init)
    ensures RunState(posted, trace) == Run(init, items, env, twitterOn)
    ensures init <= posted
    ensures Distinct(posted)
  {
    posted, trace := init, [];
    for i := 0 to |items|
      invariant RunState(posted, trace) == RunTo(init, items, env, twitterOn, i)
    {
      var step;
      posted, step := PostItem(posted, items[i], env[i], twitterOn);
      trace := trace + [step];
    }
    RunDistinct(init, items, env, twitterOn, |items|);
  }

  /** `runDBot`: load the gist, then run the loop. */
  method RunDBot(gist: Option<string>, items: seq<FeedItem>, env: seq<ItemEnv>, twitterOn: bool)
    returns (posted: seq<string>, trace: seq<Step>)
    requires |env| == |items|
    ensures RunState(posted, trace) == Run(LoadPostedCache(gist), items, env, twitterOn)
    ensures LoadPostedCache(gist) <= posted
    ensures Distinct(posted)
  {
    var init := LoadPostedCache(gist);
    posted, trace := RunLoop(init, items, env, twitterOn);
  }


  // ---------------------------------------------------------------------
  // Success of the Nostr step

  /** What nostr.py's `post` does with the entry this bot hands it, given
      the links in its own posted.txt and whether the relays accepted. */
  function NostrOutcome(item: FeedItem, env: ItemEnv, known: set<string>, relaysOk: bool)
    : (r: NostrScript.PostResult)
    requires Truthy(item.link)
    ensures r.Published? <==> DecorateLink(item.link.value) !in known && relaysOk
    ensures r.AlreadyPosted? <==> DecorateLink(item.link.value) in known
  {
    var entry := NostrEntry(env.nostrFormat, item.title, item.link.value, item.author);
    NostrScript.PostOutcome(entry.link, Some(known), entry.message, relaysOk)
  }

  /** As written: Twitter rejects the tweet and the relays fail, so nothing
      is published anywhere; nostr.py still exits with status 0, and the
      link is recorded as posted and saved to the gist. */
  lemma UnpublishedLinkIsRecorded(posted: seq<string>, item: FeedItem, env: ItemEnv, known: set<string>)
    requires Truthy(item.link) && item.link.value !in posted
    requires env.reply.Rejected?
    requires env.nostrExit == NostrScript.ScriptExitStatus(true, true, NostrOutcome(item, env, known, false).Published?)
    ensures !NostrOutcome(item, env, known, false).Published?
    ensures ProcessItem(posted, item, env, true).posted == posted + [item.link.value]
  {
  }

  /** With the exit status nostr.py is meant to give, a link is recorded
      exactly when the tweet was accepted or the note is on Nostr, published
      by this run of nostr.py or by an earlier one. */
  lemma RecordedOnlyWhenPublished(posted: seq<string>, item: FeedItem, env: ItemEnv, known: set<string>,
                                  relaysOk: bool)
    requires Truthy(item.link) && item.link.value !in posted
    requires env.nostrExit ==
               NostrScript.IntendedExitStatus(true, true, NostrScript.OnNostr(NostrOutcome(item, env, known, relaysOk)))
    ensures var o := ProcessItem(posted, item, env, true);
      (item.link.value in o.posted <==>
         env.reply.Accepted? || NostrScript.OnNostr(NostrOutcome(item, env, known, relaysOk)))
  {
    var o := ProcessItem(posted, item, env, true);
    assert o.posted == posted || o.posted == posted + [item.link.value];
  }
}

=== FILE: feed.dfy ===
/** The feed items both JavaScript bots extract from the RSS document. The
    regular expressions themselves are not modelled: each extraction starts
    from the pattern's capture group, absent when the pattern did not match. */
module Feed {
  import opened Wrappers
  import opened Strings

  /** The author used when neither author pattern yields a name. */
  const FALLBACK_AUTHOR := "Someone"

  /** One `<item>` of the feed: the dedup link (from `<guid>` or `<link>`),
      the title, and the author. Link and title are absent when their
      pattern did not match. */
  datatype FeedItem = FeedItem(link: Option<string>, title: Option<string>, author: string)

  /** `match(...)?.[1]?.trim()`: the capture trimmed, or nothing. */
  function TrimmedCapture(capture: Option<string>): (r: Option<string>)
    ensures r.Some? <==> capture.Some?
    ensures r.Some? ==> Stripped(r.value, JS_SPACE)
    ensures capture.Some? ==> r.value == Strip(capture.value, JS_SPACE)
  {
    match capture
    case None => None
    case Some(c) => Some(Strip(c, JS_SPACE))
  }

  /** A trimmed capture is truthy: it exists and is not empty. */
  predicate Truthy(s: Option<string>) {
    s.Some? && s.value != ""
  }

  /** `atom || plain || 'Someone'` over the trimmed captures of the
      `<atom:author><atom:name>` and `<author><name>` patterns: a capture that
      trims to the empty string falls through like a missing one. */
  function AuthorOf(atomName: Option<string>, plainName: Option<string>): (author: string)
    ensures author != ""
    ensures Stripped(author, JS_SPACE)
    ensures Truthy(TrimmedCapture(atomName)) ==> author == Strip(atomName.value, JS_SPACE)
    ensures !Truthy(TrimmedCapture(atomName)) && Truthy(TrimmedCapture(plainName)) ==>
              author == Strip(plainName.value, JS_SPACE)
    ensures !Truthy(TrimmedCapture(atomName)) && !Truthy(TrimmedCapture(plainName)) ==>
              author == FALLBACK_AUTHOR
  {
    var atom, plain := TrimmedCapture(atomName), TrimmedCapture(plainName);
    if Truthy(atom) then atom.value
    else if Truthy(plain) then plain.value
    else FALLBACK_AUTHOR
  }

  /** The item built from the captures of one `<item>` block. A link
      captured by `(.*?)`, whose `.` matches no line terminator, yields a
      trimmed link without any newline. */
  function ExtractItem(linkCapture: Option<string>, titleCapture: Option<string>,
                       atomName: Option<string>, plainName: Option<string>): (item: FeedItem)
    ensures item.link.Some? <==> linkCapture.Some?
    ensures item.link.Some? ==> Stripped(item.link.value, JS_SPACE)
    ensures linkCapture.Some? && Avoids(linkCapture.value, JS_LINE_TERMINATORS) ==>
              Avoids(item.link.value, JS_LINE_TERMINATORS)
    ensures item.author != ""
    ensures item.link == TrimmedCapture(linkCapture) && item.title == TrimmedCapture(titleCapture)
    ensures item.author == AuthorOf(atomName, plainName)
  {
    FeedItem(TrimmedCapture(linkCapture), TrimmedCapture(titleCapture), AuthorOf(atomName, plainName))
  }

  /** The captures of the four patterns in one `<item>` block. */
  datatype ItemCaptures = ItemCaptures(link: Option<string>, title: Option<string>, atomName: Option<string>,
                                       plainName: Option<string>)

  /** `getRSSItems`: one item per `<item>` block, in document order. */
  function ExtractItems(blocks: seq<ItemCaptures>): (items: seq<FeedItem>)
    ensures |items| == |blocks|
    ensures forall i :: 0 <= i < |blocks| ==>
              (items[i].link.Some? <==> blocks[i].link.Some?) && items[i].author != ""
    ensures forall i :: 0 <= i < |blocks| ==>
              items[i] == ExtractItem(blocks[i].link, blocks[i].title, blocks[i].atomName, blocks[i].plainName)
  {
    seq(|blocks|, i requires 0 <= i < |blocks| =>
      ExtractItem(blocks[i].link, blocks[i].title, blocks[i].atomName, blocks[i].plainName))
  }

  /** Extraction keeps document order: the items of two runs of blocks are
      the items of the first followed by those of the second. */
  lemma ExtractItemsAppend(first: seq<ItemCaptures>, second: seq<ItemCaptures>)
    ensures ExtractItems(first + second) == ExtractItems(first) + ExtractItems(second)
  {
    var all, a, b := ExtractItems(first + second), ExtractItems(first), ExtractItems(second);
    forall i | 0 <= i < |all|
      ensures all[i] == (a + b)[i]
    {
      if i < |first| {
        assert (first + second)[i] == first[i];
      } else {
        assert (first + second)[i] == second[i - |first|];
      }
    }
  }
}

=== FILE: hnf_poster.dfy ===
/** hnfPoster.js: the Health and Fitness bot. It reads posted.json, walks
    the feed items, skips those without a link or already posted, tweets
    and publishes a Nostr note for each remaining one, adds its link
    without checking either outcome, and writes posted.json once after the
    loop. A publish call that throws ends the run before the write. */
module HnfPoster {
  import opened Wrappers
  import opened Strings
  import opened Collections
  import opened JsonValue
  import opened Template
  import opened Feed
  import opened Tweet

  // ---------------------------------------------------------------------
  // posted.json

  /** `loadPostedCache`: `[]` when the file is missing, blank after trim, or
      not JSON, and when the parsed value has no truthy `posted` field
      (reading a field of `null` throws and is caught the same way);
      otherwise the `posted` value, whatever JSON it is. */
  function LoadPostedCache(file: CacheFile): (v: Json)
    ensures file.Missing? || Strip(file.text, JS_SPACE) == "" || file.parsed.None? ==> v == JList([])
    ensures v == JList([]) ||
              (file.Stored? && file.parsed.Some? && file.parsed.value.JObj? &&
               "posted" in file.parsed.value.fields && v == file.parsed.value.fields["posted"])
    ensures file.Stored? && Strip(file.text, JS_SPACE) != "" && file.parsed.Some? && file.parsed.value.JObj? &&
            "posted" in file.parsed.value.fields && JsTruthy(file.parsed.value.fields["posted"]) ==>
              v == file.parsed.value.fields["posted"]
    ensures file.Stored? && file.parsed.Some? && file.parsed.value.JObj? &&
            "posted" in file.parsed.value.fields && !JsTruthy(file.parsed.value.fields["posted"]) ==>
              v == JList([])
  {
    match file
    case Missing => JList([])
    case Stored(text, parsed) =>
      if Strip(text, JS_SPACE) == "" then JList([])
      else
        match parsed
        case None => JList([])
        case Some(JObj(m)) =>
          if "posted" in m && JsTruthy(m["posted"]) then m["posted"] else JList([])
        case Some(_) => JList([])
  }

  /** `savePostedCache`: the document `{ posted }` that is written. */
  function SavePostedCache(posted: seq<Json>): (doc: Json)
    ensures doc.JObj? && doc.fields.Keys == {"posted"}
    ensures doc.fields["posted"] == JList(posted)
  {
    JObj(map["posted" := JList(posted)])
  }

  /** Reading back a written posted.json gives the saved links, whatever
      formatting the serializer chose. */
  lemma LoadSaveRoundTrip(text: string, posted: seq<Json>)
    requires Strip(text, JS_SPACE) != ""
    ensures LoadPostedCache(Stored(text, Some(SavePostedCache(posted)))) == JList(posted)
  {
  }

  /** `new Set(value)`: the first occurrence of each element of an array,
      each character of a string, nothing for `null`; any other value is not
      iterable and the constructor throws (`None`). */
  function NewSet(v: Json): (r: Option<seq<Json>>)
    ensures r.Some? <==> v.JList? || v.JStr? || v.JNull?
    ensures v.JNull? ==> r == Some([])
    ensures r.Some? ==> Distinct(r.value)
    ensures v.JList? ==> Elements(r.value) == Elements(v.items)
    ensures v.JList? && Distinct(v.items) ==> r == Some(v.items)
    ensures v.JStr? ==> Elements(r.value) == Elements(Chars(v.s))
    ensures v.JList? ==> r == Some(Dedup(v.items))
    ensures v.JStr? ==> r == Some(Dedup(Chars(v.s)))
  {
    match v
    case JList(xs) => Some(Dedup(xs))
    case JStr(s) => Some(Dedup(Chars(s)))
    case JNull => Some([])
    case _ => None
  }

  // ---------------------------------------------------------------------
  // Messages

  /** `${author} just posted ${title} in ~HealthAndFitness. Check out now ${link}`. */
  const MESSAGE := Shape("", true, " just posted ", " in ~HealthAndFitness. Check out now ", "")

  /** The text both the tweet and the note start from; an undefined title
      prints as "undefined". */
  function Message(title: Option<string>, link: string, author: string): (m: string)
    ensures Contains(m, author) && Contains(m, title.GetOr("undefined")) && Contains(m, link)
    ensures StartsWith(m, author)
  {
    var fields := Fields(author, title.GetOr("undefined"), link);
    RenderShowsFields(MESSAGE, fields);
    Render(MESSAGE, fields)
  }

  /** The unsigned event handed to `nostr.publish`. */
  datatype NostrEvent = NostrEvent(kind: int, createdAt: int, content: string, tags: seq<string>)

  /** The note for an item at clock time `nowMillis` (`Date.now()`): a text
      note (kind 1) without tags, stamped with the time in whole seconds. */
  function Event(title: Option<string>, link: string, author: string, nowMillis: nat): (e: NostrEvent)
    ensures e.kind == 1 && e.tags == []
    ensures e.createdAt * 1000 <= nowMillis < (e.createdAt + 1) * 1000
    ensures e.content == Message(title, link, author)
  {
    NostrEvent(1, nowMillis / 1000, Message(title, link, author), [])
  }

  // ---------------------------------------------------------------------
  // The run

  /** Which platforms have keys in the environment. */
  datatype HnfConfig = HnfConfig(twitterOn: bool, nostrOn: bool)

  /** What the outside world does for one item: whether `client.v2.tweet`
      and `nostr.publish` return (rather than throw), and the clock. */
  datatype HnfEnv = HnfEnv(tweetReturns: bool, publishReturns: bool, nowMillis: nat)

  /** One pass of the loop body: skipped, or attempted with the tweet sent
      (none without a Twitter key), the event published (none without a
      Nostr key, or when the tweet threw first), and whether a call threw. */
  datatype HnfStep =
    | HSkipped
    | HAttempted(link: string, tweet: Option<string>, event: Option<NostrEvent>, threw: bool)

  datatype HnfItemOutcome = HnfItemOutcome(posted: seq<Json>, step: HnfStep)

  /** The loop body of `runHnfBot` for one item. */
  function HnfItem(posted: seq<Json>, item: FeedItem, env: HnfEnv, cfg: HnfConfig): (r: HnfItemOutcome)
    ensures r.step.HSkipped? <==> !Truthy(item.link) || JStr(item.link.value) in posted
    ensures r.step.HAttempted? ==> r.step.link == item.link.value
    ensures r.posted == if r.step.HAttempted? && !r.step.threw then posted + [JStr(item.link.value)] else posted
    ensures r.step.HAttempted? ==>
              (r.step.threw <==> (cfg.twitterOn && !env.tweetReturns) || (cfg.nostrOn && !env.publishReturns))
  {
    if !Truthy(item.link) || JStr(item.link.value) in posted then HnfItemOutcome(posted, HSkipped)
    else
      var link := item.link.value;
      var message := Message(item.title, link, item.author);
      var tweet := if cfg.twitterOn then Some(Truncate(message)) else None;
      var tweetThrew := cfg.twitterOn && !env.tweetReturns;
      var event := if cfg.nostrOn && !tweetThrew then Some(Event(item.title, link, item.author, env.nowMillis))
                   else None;
      var threw := tweetThrew || (cfg.nostrOn && !env.publishReturns);
      if threw then HnfItemOutcome(posted, HAttempted(link, tweet, event, true))
      else HnfItemOutcome(posted + [JStr(link)], HAttempted(link, tweet, event, false))
  }

  /** What an attempted item sends: a tweet exactly when Twitter has a key,
      at most 280 characters; an event exactly when Nostr has a key and the
      tweet did not throw first, a text note without tags that names the
      link. */
  lemma HnfItemFacts(posted: seq<Json>, item: FeedItem, env: HnfEnv, cfg: HnfConfig)
    ensures var r := HnfItem(posted, item, env, cfg);
      r.step.HAttempted? ==>
              (r.step.tweet.Some? <==> cfg.twitterOn) &&
              (r.step.tweet.Some? ==> |r.step.tweet.value| <= TWEET_LIMIT) &&
              (r.step.event.Some? <==> cfg.nostrOn && (!cfg.twitterOn || env.tweetReturns)) &&
              (r.step.event.Some? ==>
                 r.step.event.value.kind == 1 && r.step.event.value.tags == [] &&
                 Contains(r.step.event.value.content, r.step.link)) &&
              (r.step.tweet.Some? ==> r.step.tweet.value == Truncate(Message(item.title, r.step.link, item.author))) &&
              (r.step.event.Some? ==>
                 r.step.event.value == Event(item.title, r.step.link, item.author, env.nowMillis))
  {
  }

  /** The loop state: the posted set, the steps taken, and whether a call
      threw (which ends the loop). */
  datatype HnfState = HnfState(posted: seq<Json>, steps: seq<HnfStep>, aborted: bool)

  /** The state after the loop has run over the first `k` items from the
      set `init`; once a call throws, the remaining items are not visited. */
  function HnfRunTo(init: seq<Json>, items: seq<FeedItem>, env: seq<HnfEnv>, cfg: HnfConfig, k: nat): (r: HnfState)
    requires |env| == |items| && k <= |items|
    ensures !r.aborted ==> |r.steps| == k
    ensures |r.steps| <= k
    ensures init <= r.posted
  {
    if k == 0 then HnfState(init, [], false)
    else
      var before := HnfRunTo(init, items, env, cfg, k - 1);
      if before.aborted then before
      else
        var o := HnfItem(before.posted, items[k - 1], env[k - 1], cfg);
        HnfState(o.posted, before.steps + [o.step], o.step.HAttempted? && o.step.threw)
  }

  /** The state after the loop has run over the whole feed. */
  function HnfRun(init: seq<Json>, items: seq<FeedItem>, env: seq<HnfEnv>, cfg: HnfConfig): HnfState
    requires |env| == |items|
  {
    HnfRunTo(init, items, env, cfg, |items|)
  }

  /** The set never holds a link twice when the loaded one does not: a link
      is only added when it is not in the set yet. */
  lemma {:induction false} HnfRunDistinct(init: seq<Json>, items: seq<FeedItem>, env: seq<HnfEnv>, cfg: HnfConfig,
                                          k: nat)
    requires |env| == |items| && k <= |items| && Distinct(init)
    ensures Distinct(HnfRunTo(init, items, env, cfg, k).posted)
  {
    if k > 0 {
      HnfRunDistinct(init, items, env, cfg, k - 1);
      var before := HnfRunTo(init, items, env, cfg, k - 1);
      if !before.aborted {
        var o := HnfItem(before.posted, items[k - 1], env[k - 1], cfg);
        if o.posted != before.posted {
          DistinctSnoc(before.posted, JStr(items[k - 1].link.value));
        }
      }
    }
  }

  /** How `runHnfBot` ends: it throws while building the set from the
      loaded value, it throws inside the loop (nothing is written), or it
      finishes and writes the document. */
  datatype HnfOutcome =
    | LoadThrew
    | LoopThrew(steps: seq<HnfStep>)
    | Finished(posted: seq<Json>, steps: seq<HnfStep>, written: Json)

  /** `runHnfBot` over the file as it is and the outcomes of the calls. */
  function HnfBot(file: CacheFile, items: seq<FeedItem>, env: seq<HnfEnv>, cfg: HnfConfig): (r: HnfOutcome)
    requires |env| == |items|
    ensures r.LoadThrew? <==> !LoadPostedCache(file).JList? && !LoadPostedCache(file).JStr? &&
                              !LoadPostedCache(file).JNull?
    ensures r.Finished? ==> |r.steps| == |items| && NewSet(LoadPostedCache(file)).value <= r.posted
  {
    match NewSet(LoadPostedCache(file))
    case None => LoadThrew
    case Some(init) =>
      var r := HnfRun(init, items, env, cfg);
      if r.aborted then LoopThrew(r.steps) else Finished(r.posted, r.steps, SavePostedCache(r.posted))
  }

  /** Once the loop has thrown, later items change nothing. */
  lemma {:induction false} AbortSticks(init: seq<Json>, items: seq<FeedItem>, env: seq<HnfEnv>, cfg: HnfConfig,
                                       k: nat, m: nat)
    requires |env| == |items| && k <= m <= |items|
    requires HnfRunTo(init, items, env, cfg, k).aborted
    ensures HnfRunTo(init, items, env, cfg, m) == HnfRunTo(init, items, env, cfg, k)
  {
    if k < m {
      AbortSticks(init, items, env, cfg, k, m - 1);
    }
  }

  /** The loop body of `runHnfBot`: skip the item when its link is missing
      or known; otherwise tweet when Twitter has a key, publish when Nostr
      has one, and add the link. A call that throws ends the pass with the
      link not added. */
  method PostHnfItem(posted: seq<Json>, item: FeedItem, env: HnfEnv, cfg: HnfConfig)
    returns (posted': seq<Json>, step: HnfStep)
    ensures HnfItemOutcome(posted', step) == HnfItem(posted, item, env, cfg)
  {
    posted' := posted;
    if !Truthy(item.link) || JStr(item.link.value) in posted {
      return posted, HSkipped;
    }
    var link := item.link.value;
    var message := Message(item.title, link, item.author);
    var tweet: Option<string> := None;
    if cfg.twitterOn {
      tweet := Some(Truncate(message));
      if !env.tweetReturns {
        return posted, HAttempted(link, tweet, None, true);
      }
    }
    var event: Option<NostrEvent> := None;
    if cfg.nostrOn {
      event := Some(Event(item.title, link, item.author, env.nowMillis));
      if !env.publishReturns {
        return posted, HAttempted(link, tweet, event, true);
      }
    }
    posted' := posted + [JStr(link)];
    step := HAttempted(link, tweet, event, false);
  }

  /** `runHnfBot`: build the set from posted.json, then run the loop body
      over the items until a call throws; write posted.json after the loop. */
  method RunHnfBot(file: CacheFile, items: seq<FeedItem>, env: seq<HnfEnv>, cfg: HnfConfig)
    returns (outcome: HnfOutcome)
    requires |env| == |items|
    ensures outcome == HnfBot(file, items, env, cfg)
  {
    var loaded := NewSet(LoadPostedCache(file));
    if loaded.None? {
      return LoadThrew;
    }
    var posted := loaded.value;
    ghost var init := posted;
    var steps: seq<HnfStep> := [];
    for i := 0 to |items|
      invariant HnfRunTo(init, items, env, cfg, i) == HnfState(posted, steps, false)
    {
      var step;
      posted, step := PostHnfItem(posted, items[i], env[i], cfg);
      steps := steps + [step];
      if step.HAttempted? && step.threw {
        AbortSticks(init, items, env, cfg, i + 1, |items|);
        return LoopThrew(steps);
      }
    }
    outcome := Finished(posted, steps, SavePostedCache(posted));
  }

  // ---------------------------------------------------------------------
  // Properties of a run

  /** The links of the attempted steps, in order. */
  function AttemptedLinks(steps: seq<HnfStep>): seq<Json> {
    if steps == [] then []
    else
      var last := steps[|steps| - 1];
      AttemptedLinks(steps[..|steps| - 1]) + (if last.HAttempted? then [JStr(last.link)] else [])
  }

  /** A pass of the loop body that does not throw adds to the set exactly
      the link `AttemptedLinks` records for its step. */
  lemma AttemptedStep(init: seq<Json>, posted: seq<Json>, steps: seq<HnfStep>, item: FeedItem, env: HnfEnv,
                      cfg: HnfConfig)
    requires posted == init + AttemptedLinks(steps)
    requires forall i :: 0 <= i < |steps| ==> !(steps[i].HAttempted? && steps[i].threw)
    ensures var o := HnfItem(posted, item, env, cfg);
      var t := steps + [o.step];
      !(o.step.HAttempted? && o.step.threw) ==>
        o.posted == init + AttemptedLinks(t) && forall i :: 0 <= i < |t| ==> !(t[i].HAttempted? && t[i].threw)
  {
    var o := HnfItem(posted, item, env, cfg);
    var t := steps + [o.step];
    assert t[..|t| - 1] == steps && t[|t| - 1] == o.step;
  }

  /** While the loop runs, every attempted item's link is added whatever the
      platforms did with it; the run stops at the first call that throws. */
  lemma {:induction false} HnfRunPosted(init: seq<Json>, items: seq<FeedItem>, env: seq<HnfEnv>, cfg: HnfConfig,
                                        k: nat)
    requires |env| == |items| && k <= |items|
    ensures var r := HnfRunTo(init, items, env, cfg, k);
      (!r.aborted ==> r.posted == init + AttemptedLinks(r.steps) &&
                      forall i :: 0 <= i < |r.steps| ==> !(r.steps[i].HAttempted? && r.steps[i].threw)) &&
      (r.aborted ==> r.steps != [] && r.steps[|r.steps| - 1].HAttempted? && r.steps[|r.steps| - 1].threw)
  {
    if k > 0 {
      var before := HnfRunTo(init, items, env, cfg, k - 1);
      HnfRunPosted(init, items, env, cfg, k - 1);
      if !before.aborted {
        AttemptedStep(init, before.posted, before.steps, items[k - 1], env[k - 1], cfg);
      }
    }
  }

  /** A finished run writes exactly the loaded set followed by the link of
      every item it attempted; no call threw on the way. */
  lemma FinishedWritesAttempted(file: CacheFile, items: seq<FeedItem>, env: seq<HnfEnv>, cfg: HnfConfig)
    requires |env| == |items|
    ensures match HnfBot(file, items, env, cfg)
      case Finished(posted, steps, written) =>
        posted == NewSet(LoadPostedCache(file)).value + AttemptedLinks(steps) &&
        written == SavePostedCache(posted) && |steps| == |items| &&
        forall i :: 0 <= i < |steps| ==> !(steps[i].HAttempted? && steps[i].threw)
      case LoopThrew(steps) => steps != [] && steps[|steps| - 1].HAttempted? && steps[|steps| - 1].threw
      case LoadThrew => !LoadPostedCache(file).JList? && !LoadPostedCache(file).JStr? && !LoadPostedCache(file).JNull?
  {
    match NewSet(LoadPostedCache(file))
    case None =>
    case Some(init) =>
      HnfRunOutcome(init, items, env, cfg);
  }

  /** `FinishedWritesAttempted` for the loop over a loaded set `init`. */
  lemma HnfRunOutcome(init: seq<Json>, items: seq<FeedItem>, env: seq<HnfEnv>, cfg: HnfConfig)
    requires |env| == |items|
    ensures var r := HnfRun(init, items, env, cfg);
      (!r.aborted ==> r.posted == init + AttemptedLinks(r.steps) && |r.steps| == |items| &&
                      forall i :: 0 <= i < |r.steps| ==> !(r.steps[i].HAttempted? && r.steps[i].threw)) &&
      (r.aborted ==> r.steps != [] && r.steps[|r.steps| - 1].HAttempted? && r.steps[|r.steps| - 1].threw)
  {
    HnfRunPosted(init, items, env, cfg, |items|);
  }

  /** Items without a link, or whose link is in the loaded set, are skipped:
      nothing is tweeted or published for them. */
  lemma {:induction false} HnfSkipsKnownLinks(init: seq<Json>, items: seq<FeedItem>, env: seq<HnfEnv>,
                                              cfg: HnfConfig, k: nat, i: nat)
    requires |env| == |items| && k <= |items|
    requires i < |HnfRunTo(init, items, env, cfg, k).steps|
    ensures var s := HnfRunTo(init, items, env, cfg, k).steps[i];
      (!Truthy(items[i].link) || JStr(items[i].link.value) in init ==> s.HSkipped?) &&
      (s.HAttempted? ==> s.link == items[i].link.value && JStr(s.link) !in init)
  {
    var before := HnfRunTo(init, items, env, cfg, k - 1);
    if before.aborted {
      HnfSkipsKnownLinks(init, items, env, cfg, k - 1, i);
    } else {
      var o := HnfItem(before.posted, items[k - 1], env[k - 1], cfg);
      var r := HnfRunTo(init, items, env, cfg, k);
      assert r == HnfState(o.posted, before.steps + [o.step], o.step.HAttempted? && o.step.threw);
      if i < k - 1 {
        HnfSkipsKnownLinks(init, items, env, cfg, k - 1, i);
        assert r.steps[i] == before.steps[i];
      } else {
        assert r.steps[i] == o.step;
        assert before.posted[..|init|] == init;
        assert forall x :: x in init ==> x in before.posted;
      }
    }
  }

  /** After a run that has not thrown, every item link visited is in the set. */
  lemma {:induction false} HnfRunCoversFeed(init: seq<Json>, items: seq<FeedItem>, env: seq<HnfEnv>, cfg: HnfConfig,
                                            k: nat)
    requires |env| == |items| && k <= |items|
    requires !HnfRunTo(init, items, env, cfg, k).aborted
    ensures forall i :: 0 <= i < k && Truthy(items[i].link) ==>
              JStr(items[i].link.value) in HnfRunTo(init, items, env, cfg, k).posted
  {
    if k > 0 {
      var before := HnfRunTo(init, items, env, cfg, k - 1);
      var r := HnfRunTo(init, items, env, cfg, k);
      HnfRunCoversStep(init, items, env, cfg, k);
      HnfRunCoversFeed(init, items, env, cfg, k - 1);
      forall i | 0 <= i < k && Truthy(items[i].link) ensures JStr(items[i].link.value) in r.posted {
        if i < k - 1 {
          assert JStr(items[i].link.value) in before.posted;
        }
      }
    }
  }

  /** One step of a run that has not aborted keeps every link posted so far
      and adds the link of the item it visits. */
  lemma HnfRunCoversStep(init: seq<Json>, items: seq<FeedItem>, env: seq<HnfEnv>, cfg: HnfConfig, k: nat)
    requires |env| == |items| && 0 < k <= |items|
    requires !HnfRunTo(init, items, env, cfg, k).aborted
    ensures !HnfRunTo(init, items, env, cfg, k - 1).aborted
    ensures forall x :: x in HnfRunTo(init, items, env, cfg, k - 1).posted ==> x in HnfRunTo(init, items, env, cfg, k).posted
    ensures Truthy(items[k - 1].link) ==> JStr(items[k - 1].link.value) in HnfRunTo(init, items, env, cfg, k).posted
  {
    var before := HnfRunTo(init, items, env, cfg, k - 1);
    var o := HnfItem(before.posted, items[k - 1], env[k - 1], cfg);
    assert HnfRunTo(init, items, env, cfg, k).posted == o.posted;
  }

  /** From a set holding every item link, the loop skips every item. */
  lemma {:induction false} HnfKnownFeedIsSkipped(p: seq<Json>, items: seq<FeedItem>, env: seq<HnfEnv>,
                                                 cfg: HnfConfig, k: nat)
    requires |env| == |items| && k <= |items|
    requires forall i :: 0 <= i < |items| && Truthy(items[i].link) ==> JStr(items[i].link.value) in p
    ensures HnfRunTo(p, items, env, cfg, k) == HnfState(p, seq(k, _ => HSkipped), false)
  {
    if k > 0 {
      HnfKnownFeedIsSkipped(p, items, env, cfg, k - 1);
      assert seq(k - 1, _ => HSkipped) + [HSkipped] == seq(k, _ => HSkipped);
    }
  }

  /** Running the bot again on the posted.json a finished run wrote posts
      nothing, whatever the platforms would do, and writes the same document. */
  lemma HnfRunAgainIsQuiet(file: CacheFile, items: seq<FeedItem>, env: seq<HnfEnv>, env2: seq<HnfEnv>,
                           cfg: HnfConfig, text: string)
    requires |env| == |items| && |env2| == |items|
    requires HnfBot(file, items, env, cfg).Finished?
    requires Strip(text, JS_SPACE) != ""
    ensures var first := HnfBot(file, items, env, cfg);
      HnfBot(Stored(text, Some(first.written)), items, env2, cfg) ==
        Finished(first.posted, seq(|items|, _ => HSkipped), first.written)
  {
    var init := NewSet(LoadPostedCache(file)).value;
    var r := HnfRun(init, items, env, cfg);
    HnfRunCoversFeed(init, items, env, cfg, |items|);
    HnfRunDistinct(init, items, env, cfg, |items|);
    LoadSaveRoundTrip(text, r.posted);
    assert NewSet(JList(r.posted)) == Some(r.posted);
    HnfKnownFeedIsSkipped(r.posted, items, env2, cfg, |items|);
  }
}

=== FILE: json.dfy ===
/** JSON documents as the cache loaders see them after parsing, and the
    cache files they parse. No byte-level parser is modelled: a stored file
    carries its text together with what the JSON parser makes of it. */
module JsonValue {
  import opened Wrappers

  /** A parsed JSON value. An object is a map because both parsers keep the
      last of repeated keys. */
  datatype Json =
    | JNull
    | JBool(b: bool)
    | JNum(n: int)
    | JStr(s: string)
    | JList(items: seq<Json>)
    | JObj(fields: map<string, Json>)

  /** A cache file: absent, or present with its full text and the outcome of
      parsing that text as JSON with surrounding whitespace ignored (`None`
      when the parser raises). */
  datatype CacheFile = Missing | Stored(text: string, parsed: Option<Json>)

  /** JavaScript truthiness of a parsed value, as `value || fallback` tests it. */
  predicate JsTruthy(v: Json) {
    match v
    case JNull => false
    case JBool(b) => b
    case JNum(n) => n != 0
    case JStr(s) => s != ""
    case _ => true
  }

  /** Python values that a set can hold: everything except lists and dicts. */
  predicate Hashable(v: Json) {
    !v.JList? && !v.JObj?
  }

  /** Iterating over a string in either language: one single-character
      string per character. */
  function Chars(s: string): (r: seq<Json>)
    ensures |r| == |s|
    ensures forall i :: 0 <= i < |s| ==> r[i] == JStr([s[i]])
  {
    seq(|s|, i requires 0 <= i < |s| => JStr([s[i]]))
  }
}

=== FILE: nostr_lib.dfy ===
/** lib/nostr.py: the library version of the Nostr helper. Besides a
    `NostrPoster` like nostr.py's (with one fixed note template), it keeps a
    JSON posted-items file keyed by item id and wraps a posting function so
    that an id is published at most once. Its `load_posted_cache` and
    `save_posted_cache` are those of nostr.py and reuse that model. */
module NostrLib {
  import opened Wrappers
  import opened Strings
  import opened Collections
  import opened JsonValue
  import opened Template
  import NostrScript

  // ---------------------------------------------------------------------
  // The posted-items file

  /** `set(value)` over a parsed value: the elements of a list (a list
      holding a list or a dict raises `TypeError`), the characters of a
      string, the keys of a dict; numbers, booleans and `None` are not
      iterable and raise. `None` stands for the raise. */
  function PySet(v: Json): (r: Option<set<Json>>)
    ensures r.Some? <==> (v.JList? && forall x :: x in v.items ==> Hashable(x)) || v.JStr? || v.JObj?
    ensures r.Some? ==> forall x :: x in r.value ==> Hashable(x)
    ensures v.JList? && r.Some? ==> r.value == Elements(v.items)
    ensures v.JStr? ==> forall x :: x in r.value <==> exists i :: 0 <= i < |v.s| && x == JStr([v.s[i]])
    ensures v.JObj? ==> forall x :: x in r.value <==> x.JStr? && x.s in v.fields
  {
    match v
    case JList(xs) => if forall x :: x in xs ==> Hashable(x) then Some(Elements(xs)) else None
    case JStr(s) => Some(Elements(Chars(s)))
    case JObj(m) => Some(set k | k in m :: JStr(k))
    case _ => None
  }

  /** The line-by-line reading: each stripped, non-empty line as a string. */
  function LineItems(content: string): (r: set<Json>)
    ensures forall x :: x in r ==> x.JStr? && x.s != ""
    ensures forall x :: x in r <==>
              x.JStr? && x.s != "" && exists l :: l in Split(content, '\n') && Strip(l, PY_SPACE) == x.s
  {
    NonBlankMembers(Split(content, '\n'), PY_SPACE);
    set l | l in NonBlankLines(Split(content, '\n'), PY_SPACE) :: JStr(l)
  }

  /** The file content after `f.read().strip()`: text-mode newlines, then
      Python's whitespace stripped from both ends. */
  function Content(text: string): (c: string)
    ensures Stripped(c, PY_SPACE) && '\r' !in c
    ensures forall ch :: ch in c ==> ch in UniversalNewlines(text)
    ensures c == Strip(UniversalNewlines(text), PY_SPACE)
  {
    Strip(UniversalNewlines(text), PY_SPACE)
  }

  /** `load_posted_items`: the empty set for a missing or blank file; for
      JSON content, the set of a top-level list or of the `posted_items`
      value of a dict (the empty set when building it raises, the bare
      `except` catching the `TypeError`); for any other content, including
      JSON of another shape, the stripped non-empty lines. */
  function LoadPostedItems(file: CacheFile): (r: set<Json>)
    ensures file.Missing? || Content(file.text) == "" ==> r == {}
    ensures file.Stored? && Content(file.text) != "" && file.parsed.Some? && file.parsed.value.JList? ==>
              r == PySet(file.parsed.value).GetOr({})
    ensures file.Stored? && Content(file.text) != "" && file.parsed.Some? && file.parsed.value.JObj? &&
            "posted_items" in file.parsed.value.fields ==>
              r == PySet(file.parsed.value.fields["posted_items"]).GetOr({})
    ensures file.Stored? && Content(file.text) != "" &&
            !(file.parsed.Some? && file.parsed.value.JList?) &&
            !(file.parsed.Some? && file.parsed.value.JObj? && "posted_items" in file.parsed.value.fields) ==>
              r == LineItems(Content(file.text))
  {
    match file
    case Missing => {}
    case Stored(text, parsed) =>
      var content := Content(text);
      if content == "" then {}
      else
        match parsed
        case Some(JList(xs)) => PySet(JList(xs)).GetOr({})
        case Some(JObj(m)) =>
          if "posted_items" in m then PySet(m["posted_items"]).GetOr({}) else LineItems(content)
        case _ => LineItems(content)
  }

  /** Whatever the file holds, the loaded set only holds values a Python
      set can hold, so it can be saved and loaded again. */
  lemma LoadedItemsAreHashable(file: CacheFile)
    ensures forall x :: x in LoadPostedItems(file) ==> Hashable(x)
  {
    var r := LoadPostedItems(file);
    if file.Stored? && Content(file.text) != "" {
      var parsed := file.parsed;
      if parsed.Some? && parsed.value.JList? {
        assert r == PySet(parsed.value).GetOr({});
      } else if parsed.Some? && parsed.value.JObj? && "posted_items" in parsed.value.fields {
        assert r == PySet(parsed.value.fields["posted_items"]).GetOr({});
      } else {
        assert r == LineItems(Content(file.text));
      }
    }
  }

  /** `save_posted_items`: the document written, the items listed in the
      set's iteration order `order`, stamped with `now` (the ISO text of
      `datetime.now()`). */
  function SavePostedItems(order: seq<Json>, now: string): (doc: Json)
    ensures doc.JObj? && doc.fields.Keys == {"posted_items", "last_updated"}
    ensures doc.fields["posted_items"] == JList(order) && doc.fields["last_updated"] == JStr(now)
  {
    JObj(map["posted_items" := JList(order), "last_updated" := JStr(now)])
  }

  /** Reading back a saved file gives the saved set, whatever the
      serializer's layout and whatever the timestamp. */
  lemma LoadSaveRoundTrip(text: string, order: seq<Json>, now: string)
    requires Content(text) != ""
    requires forall x :: x in order ==> Hashable(x)
    ensures LoadPostedItems(Stored(text, Some(SavePostedItems(order, now)))) == Elements(order)
  {
    var doc := SavePostedItems(order, now);
    assert "posted_items" in doc.fields;
    assert PySet(JList(order)) == Some(Elements(order));
  }

  // ---------------------------------------------------------------------
  // Item ids

  /** The value of an item's `id` key, for the kinds of value an item has. */
  datatype IdValue = IdStr(s: string) | IdInt(i: int) | IdBool(b: bool) | IdNone

  function DigitChar(d: nat): (c: char)
    requires d < 10
    ensures '0' <= c <= '9' && c as int - '0' as int == d
  {
    ('0' as int + d) as char
  }

  predicate AllDigits(s: string) {
    forall c :: c in s ==> '0' <= c <= '9'
  }

  /** The decimal digits of `n`, most significant first, without leading zeros. */
  function NatDigits(n: nat): (s: string)
    ensures s != [] && AllDigits(s)
    ensures |s| > 1 ==> s[0] != '0'
    ensures n > 0 ==> s[0] != '0'
    decreases n
  {
    if n < 10 then [DigitChar(n)] else NatDigits(n / 10) + [DigitChar(n % 10)]
  }

  /** The number a string of decimal digits denotes. */
  function DigitsValue(s: string): nat
    requires AllDigits(s)
  {
    if s == [] then 0
    else
      var init := s[..|s| - 1];
      assert forall c :: c in init ==> c in s;
      assert s[|s| - 1] in s;
      DigitsValue(init) * 10 + (s[|s| - 1] as int - '0' as int)
  }

  /** Reading the digits of `n` gives `n` back. */
  lemma {:induction false} NatDigitsRoundTrip(n: nat)
    ensures DigitsValue(NatDigits(n)) == n
    decreases n
  {
    if n >= 10 {
      NatDigitsRoundTrip(n / 10);
      var s := NatDigits(n);
      assert s[..|s| - 1] == NatDigits(n / 10);
    }
  }

  /** Python's `str(i)` for an integer. */
  function DecimalString(i: int): (s: string)
    ensures s != []
    ensures i >= 0 ==> AllDigits(s)
    ensures i < 0 ==> s[0] == '-' && AllDigits(s[1..])
    ensures i >= 0 && |s| > 1 ==> s[0] != '0'
    ensures i < 0 ==> |s| > 1 && s[1] != '0'
  {
    if i < 0 then "-" + NatDigits(-i) else NatDigits(i)
  }

  /** Python's `int(s)` on the strings `DecimalString` produces. */
  function ParseDecimal(s: string): int
    requires AllDigits(s) || (s != [] && s[0] == '-' && AllDigits(s[1..]))
  {
    if s != [] && s[0] == '-' then
      assert s[0] in s;
      -(DigitsValue(s[1..]) as int)
    else DigitsValue(s)
  }

  /** `int(str(i)) == i`. */
  lemma DecimalRoundTrip(i: int)
    ensures ParseDecimal(DecimalString(i)) == i
  {
    if i < 0 {
      NatDigitsRoundTrip(-i);
      assert DecimalString(i)[1..] == NatDigits(-i);
    } else {
      NatDigitsRoundTrip(i);
      assert DecimalString(i)[0] in DecimalString(i);
    }
  }

  /** `get_item_id`: `str(item.get('id', ''))`, so a missing id is the empty
      string, a string id is itself, an integer id its decimal text, and the
      Python constants print as `True`, `False` and `None`. */
  function GetItemId(id: Option<IdValue>): (key: string)
    ensures id.None? ==> key == ""
    ensures id.Some? && id.value.IdStr? ==> key == id.value.s
    ensures id.Some? && id.value.IdInt? ==> key != "" && key == DecimalString(id.value.i)
    ensures id == Some(IdBool(true)) ==> key == "True"
    ensures id == Some(IdBool(false)) ==> key == "False"
    ensures id == Some(IdNone) ==> key == "None"
  {
    match id
    case None => ""
    case Some(IdStr(s)) => s
    case Some(IdInt(i)) => DecimalString(i)
    case Some(IdBool(b)) => if b then "True" else "False"
    case Some(IdNone) => "None"
  }

  /** Different integer ids never share a key. */
  lemma IntIdsAreDistinct(a: int, b: int)
    requires a != b
    ensures GetItemId(Some(IdInt(a))) != GetItemId(Some(IdInt(b)))
  {
    DecimalRoundTrip(a);
    DecimalRoundTrip(b);
  }

  // ---------------------------------------------------------------------
  // post_to_nostr_safe

  /** What the wrapped posting function does: raise, or return a value of
      the given truthiness. */
  datatype OriginalOutcome = OriginalRaises | OriginalReturns(truthy: bool)

  /** How a call ends: it returns a boolean, or it raises. */
  datatype SafeResult = Returned(ok: bool) | Raised

  /** `item.get('title', 'Unknown')[:50]` succeeds: the title is absent, a
      string or a list; slicing anything else raises `TypeError`. */
  predicate TitleSliceable(title: Option<Json>) {
    title.None? || title.value.JStr? || title.value.JList?
  }

  /** A document `save_posted_items` writes at time `now` for the set
      `items`: exactly the keys `posted_items`, listing each item once, and
      `last_updated`. */
  predicate ListsItems(doc: Json, items: set<Json>, now: string) {
    doc.JObj? && doc.fields.Keys == {"posted_items", "last_updated"} &&
    doc.fields["last_updated"] == JStr(now) && doc.fields["posted_items"].JList? &&
    Distinct(doc.fields["posted_items"].items) && Elements(doc.fields["posted_items"].items) == items
  }

  /** `post_to_nostr_safe(item)`: loads posted.txt as posted items, and for
      an id already there logs and returns False without calling the wrapped
      function (the log line's title slice is outside the `try`, so a title
      that cannot be sliced raises). Otherwise it calls the wrapped function
      (`called`); only when that returns a truthy value is the id added and
      the file written, and the call then returns True unless the log line
      raises (caught: False). */
  method PostToNostrSafe(file: CacheFile, id: Option<IdValue>, title: Option<Json>, original: OriginalOutcome,
                         now: string)
    returns (result: SafeResult, written: Option<Json>, called: bool)
    ensures called <==> JStr(GetItemId(id)) !in LoadPostedItems(file)
    ensures var known := LoadPostedItems(file);
      JStr(GetItemId(id)) in known ==>
        written == None && result == if TitleSliceable(title) then Returned(false) else Raised
    ensures var known := LoadPostedItems(file);
      JStr(GetItemId(id)) !in known ==>
        (written.Some? <==> original == OriginalReturns(true)) &&
        result == Returned(original == OriginalReturns(true) && TitleSliceable(title))
    ensures written.Some? ==> ListsItems(written.value, LoadPostedItems(file) + {JStr(GetItemId(id))}, now)
  {
    var posted := LoadPostedItems(file);
    var key := JStr(GetItemId(id));
    if key in posted {
      if !TitleSliceable(title) {
        return Raised, None, false;
      }
      return Returned(false), None, false;
    }
    called := true;
    if original != OriginalReturns(true) {
      return Returned(false), None, called;
    }
    posted := posted + {key};
    var order := Enumerate(posted);
    written := Some(SavePostedItems(order, now));
    result := Returned(TitleSliceable(title));
  }

  /** After an id has been recorded, reading the written file again gives
      the loaded items plus that id, so the next call for the same id finds
      it and skips the item. */
  lemma RecordedIdIsSkipped(file: CacheFile, id: Option<IdValue>, doc: Json, now: string, text: string)
    requires ListsItems(doc, LoadPostedItems(file) + {JStr(GetItemId(id))}, now)
    requires Content(text) != ""
    ensures JStr(GetItemId(id)) in LoadPostedItems(Stored(text, Some(doc)))
    ensures LoadPostedItems(Stored(text, Some(doc))) == LoadPostedItems(file) + {JStr(GetItemId(id))}
  {
    var known := LoadPostedItems(file);
    LoadedItemsAreHashable(file);
    AddHashable(known, JStr(GetItemId(id)));
    LoadListed(doc, known + {JStr(GetItemId(id))}, now, text);
  }

  /** Adding a string to a set of hashable values keeps it hashable. */
  lemma AddHashable(items: set<Json>, s: Json)
    requires forall x :: x in items ==> Hashable(x)
    requires s.JStr?
    ensures forall x :: x in items + {s} ==> Hashable(x)
  {
  }

  /** A written document loads back as the set it lists. */
  lemma LoadListed(doc: Json, items: set<Json>, now: string, text: string)
    requires ListsItems(doc, items, now)
    requires forall x :: x in items ==> Hashable(x)
    requires Content(text) != ""
    ensures LoadPostedItems(Stored(text, Some(doc))) == items
  {
    var order := doc.fields["posted_items"].items;
    assert forall x :: x in order ==> x in Elements(order);
    assert "posted_items" in doc.fields;
    assert PySet(JList(order)) == Some(Elements(order));
  }

  /** Two calls for the same item, the second on the file the first one
      wrote (`text`, whatever the serializer's layout): once the first call
      has recorded the id, the second skips the item without calling the
      wrapped function, writes nothing and does not return True. */
  method PostTwice(file: CacheFile, id: Option<IdValue>, title: Option<Json>, first: OriginalOutcome,
                   second: OriginalOutcome, now: string, later: string, text: string)
    returns (written: Option<Json>, result2: SafeResult, written2: Option<Json>, called2: bool)
    requires Content(text) != ""
    ensures written.Some? <==> first == OriginalReturns(true) && JStr(GetItemId(id)) !in LoadPostedItems(file)
    ensures written.Some? ==> !called2 && written2 == None && result2 != Returned(true)
  {
    var result, called;
    result, written, called := PostToNostrSafe(file, id, title, first, now);
    var file2 := if written.Some? then Stored(text, written) else file;
    if written.Some? {
      RecordedIdIsSkipped(file, id, written.value, now, text);
    }
    result2, written2, called2 := PostToNostrSafe(file2, id, title, second, later);
  }

  // ---------------------------------------------------------------------
  // NostrPoster

  /** The one template of this poster's `build_nostr_entry`. */
  const NOTE := Shape("@", true, " just posted ", " in #Design. Check it out at ", "")

  class NostrPoster {
    const relays: seq<string>

    /** Signing-key parsing and relay registration are not modelled. */
    constructor (relays: seq<string>)
      ensures this.relays == relays
    {
      this.relays := relays;
    }

    /** `build_nostr_entry`: the fixed template over author, title and link,
        whatever message the entry carries; `KeyError` (`None`) when one of
        the three is absent. */
    static function BuildNostrEntry(entry: NostrScript.Entry): (note: Option<string>)
      ensures note.Some? <==> entry.author.Some? && entry.title.Some? && entry.link.Some?
      ensures note.Some? ==>
                Contains(note.value, entry.author.value) && Contains(note.value, entry.title.value) &&
                Contains(note.value, entry.link.value) && StartsWith(note.value, "@" + entry.author.value)
    {
      if entry.author.None? || entry.title.None? || entry.link.None? then None
      else
        var fields := Fields(entry.author.value, entry.title.value, entry.link.value);
        RenderShowsFields(NOTE, fields);
        var note := Render(NOTE, fields);
        Some(note)
    }

    /** `post(entry, posted_set)`, as in nostr.py but with this poster's
        note: skip an entry without a link or whose link the caller's set
        holds; otherwise build, sign and publish (`relaysOk`), and only on
        success add the link to the set and rewrite posted.txt from it.
        `saveOk` is whether posted.txt could be opened for writing: when it
        cannot, the link is already in the set, the file stays as it was,
        and the `except` returns False. */
    method Post(entry: NostrScript.Entry, posted: NostrScript.PostedSet?, cache: NostrScript.TextFile,
                relaysOk: bool, saveOk: bool)
      returns (ok: bool)
      modifies posted, cache
      ensures var r := NostrScript.PostOutcome(entry.link,
                                               if posted == null then None else Some(old(posted.members)),
                                               BuildNostrEntry(entry), relaysOk);
              ok == (r.Published? && (posted == null || saveOk))
      ensures var r := NostrScript.PostOutcome(entry.link,
                                               if posted == null then None else Some(old(posted.members)),
                                               BuildNostrEntry(entry), relaysOk);
              posted != null ==>
                posted.members == if r.Published? then old(posted.members) + {entry.link.value}
                                  else old(posted.members)
      ensures !(ok && posted != null) ==> cache.contents == old(cache.contents)
      ensures ok && posted != null ==>
                exists order :: Distinct(order) && Elements(order) == posted.members &&
                                cache.contents == Some(Terminated(order, '\n'))
      ensures ok && posted != null && (forall x :: x in posted.members ==> NostrScript.CachedLink(x)) ==>
                NostrScript.LoadPostedCache(cache.contents) == posted.members
    {
      var link := entry.link;
      if !NostrScript.Truthy(link) {
        return false;
      }
      if posted != null && link.value in posted.members {
        return false;
      }
      var note := BuildNostrEntry(entry);
      if note.None? || !relaysOk {
        return false;
      }
      if posted != null {
        posted.members := posted.members + {link.value};
        if !saveOk {
          return false;
        }
        var text, order := NostrScript.SavePostedCache(posted.members);
        cache.contents := Some(text);
      }
      return true;
    }
  }
}

=== FILE: nostr_script.dfy ===
/** nostr.py: the helper the Design bot runs as a subprocess. It keeps its
    own posted.txt of published links, builds the note text from the entry
    it is given (the message itself, or one of 44 templates), and publishes
    it to the relays. Signing and the relay connections are outside the
    model: they appear as one outcome, whether they all returned. */
module NostrScript {
  import opened Wrappers
  import opened Strings
  import opened Collections
  import opened Template

  /** `load_posted_cache`: no file gives the empty set; otherwise the set of
      stripped, non-blank lines, the file read in text mode (so a `\r` ends
      a line too). */
  function LoadPostedCache(file: Option<string>): (posted: set<string>)
    ensures file.None? ==> posted == {}
    ensures file.Some? ==> forall x :: x in posted <==>
              x != "" && exists l :: l in Split(UniversalNewlines(file.value), '\n') && Strip(l, PY_SPACE) == x
  {
    match file
    case None => {}
    case Some(text) =>
      NonBlankMembers(Split(UniversalNewlines(text), '\n'), PY_SPACE);
      Elements(NonBlankLines(Split(UniversalNewlines(text), '\n'), PY_SPACE))
  }

  /** A link that posted.txt stores and gives back unchanged: not empty,
      stripped, and free of both line-ending characters. */
  predicate CachedLink(x: string) {
    CleanLine(x, PY_SPACE, '\n') && '\r' !in x
  }

  /** Loading the text of a save gives back exactly the links written,
      provided each is one clean line. */
  lemma LoadTerminated(order: seq<string>)
    requires forall x :: x in order ==> CachedLink(x)
    ensures LoadPostedCache(Some(Terminated(order, '\n'))) == Elements(order)
  {
    TerminatedAvoids(order, '\n', '\r');
    SplitTerminated(order, '\n');
    forall i | 0 <= i < |order| ensures CleanLine(order[i], PY_SPACE, '\n') {
      assert CachedLink(order[i]);
    }
    NonBlankOfClean(order, PY_SPACE, '\n');
  }

  /** `save_posted_cache`: writes each link followed by a newline, in the
      set's iteration order (returned as `order`). Loading the result gives
      the same set back when every link is a clean line. */
  method SavePostedCache(posted: set<string>) returns (text: string, order: seq<string>)
    ensures Distinct(order) && Elements(order) == posted
    ensures text == Terminated(order, '\n')
    ensures (forall x :: x in posted ==> CachedLink(x)) ==> LoadPostedCache(Some(text)) == posted
  {
    text, order := WriteLinks(posted);
    if forall x :: x in posted ==> CachedLink(x) {
      assert forall x :: x in order ==> x in Elements(order);
      LoadTerminated(order);
    }
  }

  /** The loop of `save_posted_cache`: one line per link of the set, each
      link written once. */
  method WriteLinks(posted: set<string>) returns (text: string, order: seq<string>)
    ensures Distinct(order) && Elements(order) == posted
    ensures text == Terminated(order, '\n')
  {
    text, order := "", [];
    var rest := posted;
    while rest != {}
      invariant rest <= posted
      invariant Distinct(order) && Elements(order) == posted - rest
      invariant text == Terminated(order, '\n')
      decreases rest
    {
      var link :| link in rest;
      ElementsSnoc(order, link);
      TerminatedSnoc(order, link, '\n');
      text := text + link + "\n";
      order := order + [link];
      rest := rest - {link};
    }
  }

  /** The JSON entry passed on the command line; a field is `None` when its
      key is absent. */
  datatype Entry = Entry(title: Option<string>, link: Option<string>, author: Option<string>,
                         message: Option<string>)

  /** The 44 note templates of `build_nostr_entry`, in order, kept in groups
      of four so that a fact about every template is proved group by group. */
  const TEMPLATES: seq<Shape> :=
    GROUP_0 + GROUP_1 + GROUP_2 + GROUP_3 + GROUP_4 + GROUP_5 + GROUP_6 + GROUP_7 + GROUP_8 + GROUP_9 + GROUP_10

  /** Templates 1 to 4. */
  const GROUP_0: seq<Shape> := [
    /* nostr.py:57 */ Shape("@", true, " shares \"", "\" - another step toward #creative mastery. Explore its #design & #creativity: ", ""),
    /* nostr.py:60 */ Shape("New creation from @", true, ": \"", "\". Crafting the future of visual expression. Discover #design & #creativity. ", ""),
    /* nostr.py:63 */ Shape("@", true, " contributes \"", "\" to the minimal conversation. Less is more, #simplicity is law. #KISS Experience with #design & #creativity: ", ""),
    /* nostr.py:66 */ Shape("\"", false, "\" by @", " - because authentic #creativity isn't negotiable, that's the true #art of #design. ", "")
  ]

  /** Templates 5 to 8. */
  const GROUP_1: seq<Shape> := [
    /* nostr.py:69 */ Shape("@", true, " drops wisdom: \"", "\". #Timeless principles in action. Embrace #design & #creativity. ", ""),
    /* nostr.py:72 */ Shape("New vision from @", true, ": \"", "\". Building unforgettable #experiences, one #design at a time with #creativity. ", ""),
    /* nostr.py:75 */ Shape("@", true, " presents \"", "\" - the future belongs to those who create it. Beautiful work of #design & #creativity. ", ""),
    /* nostr.py:78 */ Shape("\"", false, "\" crafted by @", ". Breaking conventions apart, one #design at a time, with #creativity. ", "")
  ]

  /** Templates 9 to 12. */
  const GROUP_2: seq<Shape> := [
    /* nostr.py:81 */ Shape("@", true, " unveils \"", "\" - embracing inspiration. Marvel #design & #creativity: ", ""),
    /* nostr.py:84 */ Shape("Fresh approach from @", true, ": \"", "\". Revolutionizing the #creative landscape. Discover #design & #creativity; ", ""),
    /* nostr.py:87 */ Shape("@", true, " colors the world with \"", "\" - with passion. See the magic of #design & #creativity. ", ""),
    /* nostr.py:90 */ Shape("\"", false, "\" by @", " - because good things speaks volumes without words. Experience clarity with #design & #creativity: ", "")
  ]

  /** Templates 13 to 16. */
  const GROUP_3: seq<Shape> := [
    /* nostr.py:93 */ Shape("@", true, " brings wisdom: \"", "\". Authentic at its finest. Get inspired by its #design & #creativity: ", ""),
    /* nostr.py:96 */ Shape("New experiment from @", true, ": \"", "\". Technology meets beauty. Mind-bending #design & #creativity: ", ""),
    /* nostr.py:99 */ Shape("@", true, " revives nostalgia with \"", "\" - never looked so fresh. Feel inspired by its #design & #creativity: ", ""),
    /* nostr.py:102 */ Shape("\"", false, "\" crafted by @", ". Waste nothing purposefully. Conscious creation for #design & #creativity. ", "")
  ]

  /** Templates 17 to 20. */
  const GROUP_4: seq<Shape> := [
    /* nostr.py:105 */ Shape("@", true, " pushes boundaries with \"", "\" - where #bold becomes beautiful. Ignite your imagination, #design & #creativity: ", ""),
    /* nostr.py:108 */ Shape("Fresh insight from @", true, ": \"", "\". The ancient arts lives on. Explore #design & #creativity: ", ""),
    /* nostr.py:111 */ Shape("@", true, " shapes \"", "\" - crafts tells stories. Connect with purpose, #design & #creativity: ", ""),
    /* nostr.py:114 */ Shape("\"", false, "\" conceived by @", " - capturing #ideas in visual form. Brilliant thinking awaits #design & #creativity: ", "")
  ]

  /** Templates 21 to 24. */
  const GROUP_5: seq<Shape> := [
    /* nostr.py:117 */ Shape("@", true, " shares \"", "\" - bringing beauty to life. Dynamic #design & #creativity. ", ""),
    /* nostr.py:120 */ Shape("Insight from @", true, ": \"", "\". Growing your soul. A bliss for #design & #creativity: ", ""),
    /* nostr.py:123 */ Shape("@", true, " codes \"", "\" - digital #alchemy in browser windows. #design & #creativity at work:  ", ""),
    /* nostr.py:126 */ Shape("\"", false, "\" typed by @", ". Starting conversations with brilliance always works. Tasteful #design & #creativity: ", "")
  ]

  /** Templates 25 to 28. */
  const GROUP_6: seq<Shape> := [
    /* nostr.py:129 */ Shape("@", true, " captures life with \"", "\" - where words becomes sculpture, framing responsibly with #design & #creativity: ", ""),
    /* nostr.py:132 */ Shape("Smart one from @", true, ": \"", "\". Protects what words cannot. Function meets #design & #creativity: ", ""),
    /* nostr.py:135 */ Shape("@", true, " symbolizes \"", "\" - taming #ideas for perfect marks. Identify #design & #creativity: ", ""),
    /* nostr.py:138 */ Shape("\"", false, "\" crafted by @", ". Sharp #tools, sharper techniques, sharpest results. Precision work for #design & #creativity: ", "")
  ]

  /** Templates 29 to 32. */
  const GROUP_7: seq<Shape> := [
    /* nostr.py:141 */ Shape("@", true, " documents \"", "\" - every #process tells #creative stories. Behind the scenes of #design & #creativity. ", ""),
    /* nostr.py:144 */ Shape("Inspiring work from @", true, ": \"", "\". #Inspiration connects minds across centuries with #design & #creativity. ", ""),
    /* nostr.py:147 */ Shape("@", true, " craft \"", "\" - respecting every #function with purpose, improving #design & #creativity. ", ""),
    /* nostr.py:150 */ Shape("\"", false, "\" by @", ". Modern #trends meet timeless principles. Stylish evolution for #design & #creativity: ", "")
  ]

  /** Templates 33 to 36. */
  const GROUP_8: seq<Shape> := [
    /* nostr.py:153 */ Shape("@", true, " shares \"", "\" - in perfect harmony. Magic for #design & #creativity: ", ""),
    /* nostr.py:156 */ Shape("Fresh from @", true, ": \"", "\". #Stories are visual journeys on screens. A Narrative for #design & #creativity. ", ""),
    /* nostr.py:159 */ Shape("@", true, " analyzes \"", "\" - where #critique meets growth in harmony. Perfect feedback for #design & #creativity:  ", ""),
    /* nostr.py:162 */ Shape("\"", false, "\" revealed by @", ". Inspiration transforms hidden beauty. Pure brilliance for #design & #creativity.  ", "")
  ]

  /** Templates 37 to 40. */
  const GROUP_9: seq<Shape> := [
    /* nostr.py:165 */ Shape("@", true, " researches \"", "\" - evidence-based #design tells informed stories. Data-driven beauty to #inspire #creativity:  ", ""),
    /* nostr.py:168 */ Shape("Wisdom from @", true, ": \"", "\". Fast and loose #prototyping builds character. Progress revealed for #design & #creativity. ", ""),
    /* nostr.py:171 */ Shape("@", true, " posted \"", "\" - where #consistency meets scalable creativity. Organized beauty for #design. ", ""),
    /* nostr.py:174 */ Shape("\"", false, "\" fused by @", ". Disciplines collide, creating #innovation magic in #pixels. Boundary breaking #design & #creativity. ", " ")
  ]

  /** Templates 41 to 44. */
  const GROUP_10: seq<Shape> := [
    /* nostr.py:177 */ Shape("@", true, " explores \"", "\" - chasing the perfect #aesthetic through depths. Visual secrets for #design & #creativity. ", ""),
    /* nostr.py:180 */ Shape("Vision from @", true, ": \"", "\". #Presentation transforms ideas into poetry. Persuasive #art for #design & #creativity. ", ""),
    /* nostr.py:183 */ Shape("@", true, " starts with \"", "\" - morning wrapped in inspired dreams. Fresh perspective for #design & #creativity:  ", ""),
    /* nostr.py:186 */ Shape("\"", false, "\" by @", " for midnight #inspiration that demands expression. Creative dedication for #design & #creativity: ", "")
  ]

  lemma GroupTagsAuthor0()
    ensures forall t :: t in GROUP_0 ==> TagsAuthor(t)
  {
  }

  lemma GroupTagsAuthor1()
    ensures forall t :: t in GROUP_1 ==> TagsAuthor(t)
  {
  }

  lemma GroupTagsAuthor2()
    ensures forall t :: t in GROUP_2 ==> TagsAuthor(t)
  {
  }

  lemma GroupTagsAuthor3()
    ensures forall t :: t in GROUP_3 ==> TagsAuthor(t)
  {
  }

  lemma GroupTagsAuthor4()
    ensures forall t :: t in GROUP_4 ==> TagsAuthor(t)
  {
  }

  lemma GroupTagsAuthor5()
    ensures forall t :: t in GROUP_5 ==> TagsAuthor(t)
  {
  }

  lemma GroupTagsAuthor6()
    ensures forall t :: t in GROUP_6 ==> TagsAuthor(t)
  {
  }

  lemma GroupTagsAuthor7()
    ensures forall t :: t in GROUP_7 ==> TagsAuthor(t)
  {
  }

  lemma GroupTagsAuthor8()
    ensures forall t :: t in GROUP_8 ==> TagsAuthor(t)
  {
  }

  lemma GroupTagsAuthor9()
    ensures forall t :: t in GROUP_9 ==> TagsAuthor(t)
  {
  }

  lemma GroupTagsAuthor10()
    ensures forall t :: t in GROUP_10 ==> TagsAuthor(t)
  {
  }

  /** Every template writes `@` right before the author, so whichever one
      `random.choice` picks, a note built from it tags the author. */
  lemma TemplatesTagAuthor(entry: Entry, template: Shape)
    requires template in TEMPLATES
    ensures TagsAuthor(template)
    ensures !Truthy(entry.message) && NostrPoster.BuildNostrEntry(entry, template).Some? ==>
              Contains(NostrPoster.BuildNostrEntry(entry, template).value, "@" + entry.author.value)
  {
    GroupTagsAuthor0();
    GroupTagsAuthor1();
    GroupTagsAuthor2();
    GroupTagsAuthor3();
    GroupTagsAuthor4();
    GroupTagsAuthor5();
    GroupTagsAuthor6();
    GroupTagsAuthor7();
    GroupTagsAuthor8();
    GroupTagsAuthor9();
    GroupTagsAuthor10();
  }

  /** A non-empty string is truthy in Python. */
  predicate Truthy(s: Option<string>) {
    s.Some? && s.value != ""
  }

  /** The outcome of `NostrPoster.post`: skipped for want of a link, skipped
      as already posted, failed (building, signing or publishing raised), or
      published with the note text. */
  datatype PostResult = NoLink | AlreadyPosted | Failed | Published(link: string, note: string)

  /** The decision `post` takes. `known` is the caller's set (`None` when no
      set is passed), `note` what building the note gave (`None` when it
      raised), `relaysOk` whether signing and publishing returned. */
  function PostOutcome(link: Option<string>, known: Option<set<string>>, note: Option<string>,
                       relaysOk: bool): (r: PostResult)
    ensures !Truthy(link) ==> r == NoLink
    ensures Truthy(link) && known.Some? && link.value in known.value ==> r == AlreadyPosted
    ensures r.Published? <==>
              Truthy(link) && !(known.Some? && link.value in known.value) && note.Some? && relaysOk
    ensures r.Published? ==> r.link == link.value && r.note == note.value
  {
    if !Truthy(link) then NoLink
    else if known.Some? && link.value in known.value then AlreadyPosted
    else if note.None? || !relaysOk then Failed
    else Published(link.value, note.value)
  }

  /** Posting twice: once a link is published and recorded, posting it again
      is refused as already posted, whatever the relays would do. */
  lemma PostedLinkIsNotRepublished(link: Option<string>, known: set<string>, note: Option<string>,
                                   relaysOk: bool, note2: Option<string>, relaysOk2: bool)
    requires PostOutcome(link, Some(known), note, relaysOk).Published?
    ensures PostOutcome(link, Some(known + {link.value}), note2, relaysOk2) == AlreadyPosted
  {
  }

  /** A Python set object owned by the caller, which `post` extends in place. */
  class PostedSet {
    var members: set<string>

    constructor (members: set<string>)
      ensures this.members == members
    {
      this.members := members;
    }
  }

  /** The local file posted.txt: its text, or `None` when it does not exist. */
  class TextFile {
    var contents: Option<string>

    constructor (contents: Option<string>)
      ensures this.contents == contents
    {
      this.contents := contents;
    }
  }

  class NostrPoster {
    const relays: seq<string>

    /** Signing-key parsing and relay registration are not modelled. */
    constructor (relays: seq<string>)
      ensures this.relays == relays
    {
      this.relays := relays;
    }

    /** `build_nostr_entry`: the entry's message verbatim when it is present
        and not empty; otherwise `template` (the pick of `random.choice`
        among the templates) over author, title and link, which raises `KeyError`
        (`None` here) when one of them is absent. */
    static function BuildNostrEntry(entry: Entry, template: Shape): (note: Option<string>)
      ensures Truthy(entry.message) ==> note == entry.message
      ensures !Truthy(entry.message) ==>
                (note.Some? <==> entry.author.Some? && entry.title.Some? && entry.link.Some?)
      ensures !Truthy(entry.message) && note.Some? ==>
                Contains(note.value, entry.author.value) && Contains(note.value, entry.title.value) &&
                Contains(note.value, entry.link.value)
      ensures !Truthy(entry.message) && note.Some? && TagsAuthor(template) ==>
                Contains(note.value, "@" + entry.author.value)
    {
      if Truthy(entry.message) then entry.message
      else if entry.author.None? || entry.title.None? || entry.link.None? then None
      else
        var fields := Fields(entry.author.value, entry.title.value, entry.link.value);
        RenderShowsFields(template, fields);
        if TagsAuthor(template) then
          RenderTagsAuthor(template, fields);
          Some(Render(template, fields))
        else
          Some(Render(template, fields))
    }

    /** `post(entry, posted_set)`: skips an entry without a link or whose link
        the caller's set already holds; otherwise builds, signs and publishes
        the note from `template`, the one `random.choice` picked among the
        templates (`relaysOk`: all of that
        returned). Only on success is the
        link added to the caller's set and posted.txt rewritten from it; any
        earlier failure leaves both untouched. `saveOk` is whether
        posted.txt could be opened for writing: when it cannot, the link is
        already in the set, the file stays as it was, and the `except`
        returns False. */
    method Post(entry: Entry, posted: PostedSet?, cache: TextFile, template: Shape, relaysOk: bool, saveOk: bool)
      returns (ok: bool)
      modifies posted, cache
      ensures var r := PostOutcome(entry.link, if posted == null then None else Some(old(posted.members)),
                                   BuildNostrEntry(entry, template), relaysOk);
              ok == (r.Published? && (posted == null || saveOk))
      ensures var r := PostOutcome(entry.link, if posted == null then None else Some(old(posted.members)),
                                   BuildNostrEntry(entry, template), relaysOk);
              posted != null ==>
                posted.members == if r.Published? then old(posted.members) + {entry.link.value}
                                  else old(posted.members)
      ensures !(ok && posted != null) ==> cache.contents == old(cache.contents)
      ensures ok && posted != null ==>
                exists order :: Distinct(order) && Elements(order) == posted.members &&
                                cache.contents == Some(Terminated(order, '\n'))
      ensures ok && posted != null && (forall x :: x in posted.members ==> CachedLink(x)) ==>
                LoadPostedCache(cache.contents) == posted.members
    {
      var link := entry.link;
      if !Truthy(link) {
        return false;
      }
      if posted != null && link.value in posted.members {
        return false;
      }
      var note := BuildNostrEntry(entry, template);
      if note.None? || !relaysOk {
        return false;
      }
      if posted != null {
        posted.members := posted.members + {link.value};
        if !saveOk {
          return false;
        }
        var text, order := SavePostedCache(posted.members);
        cache.contents := Some(text);
      }
      return true;
    }
  }

  /** The exit status of `python3 nostr.py '<entry>'` as written: 1 when the
      argument is not JSON or the private key is refused (an uncaught
      exception), 0 otherwise, whatever `post` returned. */
  function ScriptExitStatus(entryParses: bool, keyAccepted: bool, published: bool): (status: int)
    ensures status == 0 <==> entryParses && keyAccepted
    ensures status == 0 || status == 1
  {
    if entryParses && keyAccepted then 0 else 1
  }

  /** The script reports success although nothing was published: a relay
      failure makes `post` return False and the status stays 0. */
  lemma ExitStatusIgnoresFailedPost(entry: Entry)
    requires Truthy(entry.link)
    ensures PostOutcome(entry.link, Some({}), entry.message, false) == Failed
    ensures ScriptExitStatus(true, true, PostOutcome(entry.link, Some({}), entry.message, false).Published?) == 0
  {
  }

  /** The exit status the caller needs: 0 exactly when the entry parsed, the
      key was accepted and the note is on Nostr, because `post` published it
      now or found its link in posted.txt, which only holds published links. */
  function IntendedExitStatus(entryParses: bool, keyAccepted: bool, onNostr: bool): (status: int)
    ensures status == 0 <==> entryParses && keyAccepted && onNostr
    ensures status == 0 || status == 1
  {
    if entryParses && keyAccepted && onNostr then 0 else 1
  }

  /** The outcomes after which the note is on Nostr. */
  predicate OnNostr(r: PostResult) {
    r.Published? || r.AlreadyPosted?
  }
}

=== FILE: strings.dfy ===
/** Text helpers shared by the JavaScript bots and the Python scripts:
    whitespace trimming as each language defines it, splitting and joining
    on a separator character, substring tests, and the newline translation
    Python applies when it reads a file in text mode. */
module Strings {

  /** The characters JavaScript's `String.prototype.trim` removes: the
      ECMAScript WhiteSpace and LineTerminator code points. */
  const JS_SPACE: set<char> := {
    '\t', '\n', '\U{000B}', '\U{000C}', '\r', ' ', '\U{00A0}', '\U{1680}',
    '\U{2000}', '\U{2001}', '\U{2002}', '\U{2003}', '\U{2004}', '\U{2005}',
    '\U{2006}', '\U{2007}', '\U{2008}', '\U{2009}', '\U{200A}',
    '\U{2028}', '\U{2029}', '\U{202F}', '\U{205F}', '\U{3000}', '\U{FEFF}'
  }

  /** The characters for which Python's `str.isspace()` holds, which are the
      ones `str.strip()` removes. Unlike JavaScript, Python counts the
      separators U+001C..U+001F and U+0085, and does not count U+FEFF. */
  const PY_SPACE: set<char> := {
    '\t', '\n', '\U{000B}', '\U{000C}', '\r',
    '\U{001C}', '\U{001D}', '\U{001E}', '\U{001F}', ' ', '\U{0085}', '\U{00A0}', '\U{1680}',
    '\U{2000}', '\U{2001}', '\U{2002}', '\U{2003}', '\U{2004}', '\U{2005}',
    '\U{2006}', '\U{2007}', '\U{2008}', '\U{2009}', '\U{200A}',
    '\U{2028}', '\U{2029}', '\U{202F}', '\U{205F}', '\U{3000}'
  }

  /** The line terminators a JavaScript regular expression's `.` refuses to
      match. */
  const JS_LINE_TERMINATORS: set<char> := {'\n', '\r', '\U{2028}', '\U{2029}'}

  /** `s` starts with `prefix` (Dafny's `<=` on sequences is "is a prefix of"). */
  predicate StartsWith(s: string, prefix: string) {
    prefix <= s
  }

  /** JavaScript's `s.endsWith(suffix)`. */
  predicate EndsWith(s: string, suffix: string) {
    |suffix| <= |s| && s[|s| - |suffix|..] == suffix
  }

  /** JavaScript's `s.includes(sub)`, Python's `sub in s`. */
  predicate Contains(s: string, sub: string) {
    exists i :: 0 <= i <= |s| && sub <= s[i..]
  }

  lemma ContainsPrefix(a: string, b: string)
    ensures Contains(a + b, a)
  {
    assert a <= (a + b)[0..];
  }

  lemma ContainsSuffix(a: string, b: string)
    ensures Contains(a + b, b)
  {
    assert b <= (a + b)[|a|..];
  }

  lemma ContainsInSuffix(a: string, b: string, sub: string)
    requires Contains(b, sub)
    ensures Contains(a + b, sub)
  {
    var i :| 0 <= i <= |b| && sub <= b[i..];
    assert (a + b)[|a| + i..] == b[i..];
  }

  lemma ContainsInPrefix(a: string, b: string, sub: string)
    requires Contains(a, sub)
    ensures Contains(a + b, sub)
  {
    var i :| 0 <= i <= |a| && sub <= a[i..];
    assert a[i..] <= (a + b)[i..];
  }

  /** No character of `s` belongs to `cs`. */
  predicate Avoids(s: string, cs: set<char>) {
    forall c :: c in s ==> c !in cs
  }

  /** `s` neither starts nor ends with a character of `ws`. */
  predicate Stripped(s: string, ws: set<char>) {
    s == [] || (s[0] !in ws && s[|s| - 1] !in ws)
  }

  /** Drops the leading characters that belong to `ws`. */
  function TrimStart(s: string, ws: set<char>): (r: string)
    ensures |r| <= |s| && r == s[|s| - |r|..]
    ensures r == [] || r[0] !in ws
    ensures forall i :: 0 <= i < |s| - |r| ==> s[i] in ws
  {
    if s != [] && s[0] in ws then TrimStart(s[1..], ws) else s
  }

  /** Drops the trailing characters that belong to `ws`. */
  function TrimEnd(s: string, ws: set<char>): (r: string)
    ensures |r| <= |s| && r == s[..|r|]
    ensures r == [] || r[|r| - 1] !in ws
    ensures forall i :: |r| <= i < |s| ==> s[i] in ws
  {
    if s != [] && s[|s| - 1] in ws then TrimEnd(s[..|s| - 1], ws) else s
  }

  /** JavaScript's `trim()` with `ws == JS_SPACE`, Python's `strip()` with
      `ws == PY_SPACE`. */
  function Strip(s: string, ws: set<char>): (r: string)
    ensures Stripped(r, ws)
    ensures Stripped(s, ws) ==> r == s
    ensures r == [] <==> forall i :: 0 <= i < |s| ==> s[i] in ws
    ensures forall c :: c in r ==> c in s
  {
    var t := TrimStart(s, ws);
    var r := TrimEnd(t, ws);
    assert forall c :: c in r ==> c in t;
    r
  }

  /** The stripped text is a slice of the input with only characters of `ws`
      before it and after it: `Strip` removes leading and trailing
      whitespace and nothing else. */
  lemma StripIsInfix(s: string, ws: set<char>) returns (i: nat, j: nat)
    ensures i <= j <= |s| && Strip(s, ws) == s[i..j]
    ensures forall k :: 0 <= k < i ==> s[k] in ws
    ensures forall k :: j <= k < |s| ==> s[k] in ws
  {
    var t := TrimStart(s, ws);
    i := |s| - |t|;
    var r := TrimEnd(t, ws);
    j := i + |r|;
    assert Strip(s, ws) == r;
    assert t == s[i..] && r == t[..|r|];
    SliceOfSuffix(s, i, |r|);
    TailOfSuffix(s, ws, i, t, |r|);
  }

  /** Whitespace at the end of a suffix is whitespace at the end of the text. */
  lemma TailOfSuffix(s: string, ws: set<char>, i: nat, t: string, n: nat)
    requires i <= |s| && t == s[i..] && n <= |t|
    requires forall k :: n <= k < |t| ==> t[k] in ws
    ensures forall k :: i + n <= k < |s| ==> s[k] in ws
  {
    forall k | i + n <= k < |s|
      ensures s[k] in ws
    {
      assert s[k] == t[k - i];
    }
  }

  lemma SliceOfSuffix(s: string, i: nat, n: nat)
    requires i + n <= |s|
    ensures s[i..][..n] == s[i..i + n]
  {
  }

  /** JavaScript's `s.split(sep)` and Python's `s.split(sep)` for a
      one-character separator: the pieces between occurrences of `sep`,
      including the empty piece after a trailing separator. */
  function Split(s: string, sep: char): (parts: seq<string>)
    ensures |parts| >= 1
  {
    if s == [] then [""]
    else
      var rest := Split(s[1..], sep);
      if s[0] == sep then [""] + rest
      else [[s[0]] + rest[0]] + rest[1..]
  }

  /** No piece holds the separator, and a text without it is one piece. */
  lemma {:induction false} SplitPieces(s: string, sep: char)
    ensures forall p :: p in Split(s, sep) ==> sep !in p
    ensures sep !in s ==> Split(s, sep) == [s]
  {
    if s != [] {
      SplitPieces(s[1..], sep);
      var rest := Split(s[1..], sep);
      assert sep !in s ==> sep !in s[1..] && [s[0]] + s[1..] == s;
      if s[0] != sep {
        assert forall p :: p in rest[1..] ==> p in rest;
        assert sep !in [s[0]] + rest[0];
      }
    }
  }

  /** Joining the pieces with the separator gives the text back. */
  lemma {:induction false} SplitJoin(s: string, sep: char)
    ensures Join(Split(s, sep), sep) == s
  {
    if s != [] {
      SplitJoin(s[1..], sep);
      var rest := Split(s[1..], sep);
      if s[0] == sep {
        assert Split(s, sep) == [""] + rest;
        assert ([""] + rest)[1..] == rest;
        assert Join([""] + rest, sep) == "" + [sep] + Join(rest, sep);
      } else if |rest| == 1 {
        assert Split(s, sep) == [[s[0]] + rest[0]];
        assert Join(rest, sep) == rest[0];
      } else {
        var head, tail := [s[0]] + rest[0], Join(rest[1..], sep);
        assert Split(s, sep) == [head] + rest[1..];
        assert ([head] + rest[1..])[1..] == rest[1..];
        assert Join([head] + rest[1..], sep) == head + [sep] + tail;
        assert Join(rest, sep) == rest[0] + [sep] + tail;
        ConcatAssoc([s[0]], rest[0], [sep]);
        ConcatAssoc([s[0]], rest[0] + [sep], tail);
      }
      assert s == [s[0]] + s[1..];
    }
  }

  /** A separator-free piece followed by the separator comes off as the
      first piece. */
  lemma {:induction false} SplitAfterPiece(x: string, t: string, sep: char)
    requires sep !in x
    ensures Split(x + [sep] + t, sep) == [x] + Split(t, sep)
  {
    var s := x + [sep] + t;
    if x == [] {
      assert s[0] == sep && s[1..] == t;
    } else {
      assert s[0] == x[0] && s[1..] == x[1..] + [sep] + t;
      SplitAfterPiece(x[1..], t, sep);
      assert [x[0]] + x[1..] == x;
    }
  }

  /** JavaScript's `xs.join(sep)`. */
  function Join(xs: seq<string>, sep: char): string {
    if |xs| == 0 then ""
    else if |xs| == 1 then xs[0]
    else xs[0] + [sep] + Join(xs[1..], sep)
  }

  /** Every element followed by `sep`: what a loop writing `x + sep` for each
      element produces. */
  function Terminated(xs: seq<string>, sep: char): string {
    if xs == [] then ""
    else xs[0] + [sep] + Terminated(xs[1..], sep)
  }

  /** Writing one more element extends the terminated text at its end. */
  lemma {:induction false} TerminatedSnoc(xs: seq<string>, x: string, sep: char)
    ensures Terminated(xs + [x], sep) == Terminated(xs, sep) + x + [sep]
  {
    if xs == [] {
      assert [x][1..] == [];
    } else {
      assert (xs + [x])[1..] == xs[1..] + [x];
      TerminatedSnoc(xs[1..], x, sep);
    }
  }

  /** A non-empty join with a final separator is the terminated form. */
  lemma {:induction false} JoinTerminated(xs: seq<string>, sep: char)
    requires xs != []
    ensures Join(xs, sep) + [sep] == Terminated(xs, sep)
  {
    if |xs| > 1 {
      JoinTerminated(xs[1..], sep);
    } else {
      assert xs[1..] == [];
    }
  }

  /** Splitting the terminated form of separator-free pieces gives the pieces
      back, followed by the empty piece after the last separator. */
  lemma {:induction false} SplitTerminated(xs: seq<string>, sep: char)
    requires forall x :: x in xs ==> sep !in x
    ensures Split(Terminated(xs, sep), sep) == xs + [""]
  {
    if xs != [] {
      assert forall x :: x in xs[1..] ==> x in xs;
      SplitTerminated(xs[1..], sep);
      SplitAfterPiece(xs[0], Terminated(xs[1..], sep), sep);
      assert xs == [xs[0]] + xs[1..];
    }
  }

  /** The stripped pieces that are not empty, in order: the
      `.map(l => l.trim()).filter(Boolean)` of the JavaScript bots and the
      `[l.strip() for l in ... if l.strip()]` of the Python scripts. */
  function NonBlankLines(lines: seq<string>, ws: set<char>): seq<string> {
    if lines == [] then []
    else
      var l := Strip(lines[0], ws);
      var rest := NonBlankLines(lines[1..], ws);
      if l == "" then rest else [l] + rest
  }

  /** The non-blank lines are exactly the non-empty stripped lines. */
  lemma {:induction false} NonBlankMembers(lines: seq<string>, ws: set<char>)
    ensures forall x :: x in NonBlankLines(lines, ws) <==> x != "" && exists l :: l in lines && Strip(l, ws) == x
  {
    if lines != [] {
      NonBlankMembers(lines[1..], ws);
      assert forall m :: m in lines <==> m == lines[0] || m in lines[1..];
    }
  }

  /** A cache line that survives a save and a load unchanged: not empty, free
      of the separator `sep`, and already stripped of `ws`. */
  predicate CleanLine(x: string, ws: set<char>, sep: char) {
    x != "" && sep !in x && Stripped(x, ws)
  }

  /** Clean lines followed by the empty piece after the last separator are
      exactly the lines that survive stripping and filtering. */
  lemma {:induction false} NonBlankOfClean(xs: seq<string>, ws: set<char>, sep: char)
    requires forall i :: 0 <= i < |xs| ==> CleanLine(xs[i], ws, sep)
    ensures NonBlankLines(xs + [""], ws) == xs
  {
    if xs == [] {
      NonBlankOfEmpty(ws);
    } else {
      var x, rest := xs[0], xs[1..];
      assert CleanLine(x, ws, sep);
      NonBlankOfClean(rest, ws, sep);
      HeadAppend(xs, [""]);
      NonBlankCons(x, rest + [""], ws);
    }
  }

  /** A non-empty sequence, with or without a tail, is its head before the rest. */
  lemma HeadAppend<T>(xs: seq<T>, tail: seq<T>)
    requires xs != []
    ensures xs == [xs[0]] + xs[1..]
    ensures xs + tail == [xs[0]] + (xs[1..] + tail)
  {
  }

  /** The empty piece alone leaves no line. */
  lemma NonBlankOfEmpty(ws: set<char>)
    ensures NonBlankLines([""], ws) == []
  {
    assert Stripped("", ws);
    assert [""][1..] == [];
  }

  /** A line that is already stripped and not empty is kept as it is. */
  lemma NonBlankCons(l: string, rest: seq<string>, ws: set<char>)
    requires l != "" && Stripped(l, ws)
    ensures NonBlankLines([l] + rest, ws) == [l] + NonBlankLines(rest, ws)
  {
    assert ([l] + rest)[0] == l;
    assert ([l] + rest)[1..] == rest;
  }

  /** The text Python's text-mode file reading yields: `\r\n` and a lone `\r`
      both become `\n`. */
  function UniversalNewlines(s: string): (r: string)
    ensures '\r' !in r
    ensures '\r' !in s ==> r == s
  {
    if s == [] then []
    else if s[0] == '\r' then
      "\n" + UniversalNewlines(if |s| > 1 && s[1] == '\n' then s[2..] else s[1..])
    else [s[0]] + UniversalNewlines(s[1..])
  }

  /** The translation works piece by piece: text splits anywhere except
      inside a `\r\n` pair. */
  lemma {:induction false} UniversalNewlinesAppend(a: string, b: string)
    requires !(a != [] && a[|a| - 1] == '\r' && b != [] && b[0] == '\n')
    ensures UniversalNewlines(a + b) == UniversalNewlines(a) + UniversalNewlines(b)
    decreases |a|
  {
    if a == [] {
      assert a + b == b;
    } else if a[0] == '\r' && |a| > 1 && a[1] == '\n' {
      var rest := a[2..];
      assert (a + b)[0] == '\r' && (a + b)[1] == '\n' && (a + b)[2..] == rest + b;
      assert UniversalNewlines(a + b) == "\n" + UniversalNewlines(rest + b);
      assert UniversalNewlines(a) == "\n" + UniversalNewlines(rest);
      assert rest != [] ==> rest[|rest| - 1] == a[|a| - 1];
      UniversalNewlinesAppend(rest, b);
      ConcatAssoc("\n", UniversalNewlines(rest), UniversalNewlines(b));
    } else if a[0] == '\r' && |a| == 1 {
      assert (a + b)[0] == '\r' && (a + b)[1..] == b;
      assert b != [] ==> (a + b)[1] == b[0];
      assert UniversalNewlines(a + b) == "\n" + UniversalNewlines(b);
      assert a[1..] == [];
      assert UniversalNewlines(a) == "\n";
    } else {
      var rest := a[1..];
      assert (a + b)[0] == a[0] && (a + b)[1..] == rest + b;
      assert UniversalNewlines(a + b) == (if a[0] == '\r' then "\n" else [a[0]]) + UniversalNewlines(rest + b);
      assert UniversalNewlines(a) == (if a[0] == '\r' then "\n" else [a[0]]) + UniversalNewlines(rest);
      assert rest != [] ==> rest[|rest| - 1] == a[|a| - 1];
      UniversalNewlinesAppend(rest, b);
      var head := if a[0] == '\r' then "\n" else [a[0]];
      ConcatAssoc(head, UniversalNewlines(rest), UniversalNewlines(b));
    }
  }

  lemma ConcatAssoc<T>(x: seq<T>, y: seq<T>, z: seq<T>)
    ensures x + (y + z) == (x + y) + z
  {
  }

  /** The pieces: `\r\n` and a lone `\r` each become one `\n`; every other
      character stays as it is. */
  lemma UniversalNewlinesPieces(c: char)
    ensures UniversalNewlines("\r\n") == "\n"
    ensures UniversalNewlines([c]) == if c == '\r' then "\n" else [c]
  {
  }

  /** The character sequence that precedes `x` in a terminated text contains
      no `c` that the pieces lack. */
  lemma {:induction false} TerminatedAvoids(xs: seq<string>, sep: char, c: char)
    requires c != sep
    requires forall x :: x in xs ==> c !in x
    ensures c !in Terminated(xs, sep)
  {
    if xs != [] {
      TerminatedAvoids(xs[1..], sep, c);
    }
  }
}

=== FILE: template.dfy ===
/** Message templates. Every message the bots publish is a JavaScript
    template literal or a Python f-string over an item's author, title and
    link, built from fixed text around the three fields. */
module Template {
  import opened Strings

  /** The strings interpolated into a template. */
  datatype Fields = Fields(author: string, title: string, link: string)

  /** The form every template of the bots has: literal `lead`, then the
      author and the title in the order `authorFirst` says with `middle`
      between them, then `beforeLink`, the link, and `tail`. */
  datatype Shape = Shape(lead: string, authorFirst: bool, middle: string, beforeLink: string, tail: string)

  /** The message a template produces for the given fields: its literal
      text and the fields, concatenated in order. */
  function Render(s: Shape, f: Fields): string {
    var first := if s.authorFirst then f.author else f.title;
    var second := if s.authorFirst then f.title else f.author;
    s.lead + first + s.middle + second + s.beforeLink + f.link + s.tail
  }

  /** A rendered message contains the author, the title and the link, and
      starts with the template's lead text followed by the first field,
      whatever the fields are. */
  lemma RenderShowsFields(s: Shape, f: Fields)
    ensures Contains(Render(s, f), f.author)
    ensures Contains(Render(s, f), f.title)
    ensures Contains(Render(s, f), f.link)
    ensures StartsWith(Render(s, f), s.lead + if s.authorFirst then f.author else f.title)
  {
    var first := if s.authorFirst then f.author else f.title;
    var second := if s.authorFirst then f.title else f.author;
    var p1 := s.lead + first;
    var p2 := p1 + s.middle;
    var p3 := p2 + second;
    var p4 := p3 + s.beforeLink;
    var p5 := p4 + f.link;
    assert Render(s, f) == p5 + s.tail;
    assert p1 <= p2 <= p3 <= p4 <= p5 <= Render(s, f);
    ContainsSuffix(s.lead, first);
    ContainsInPrefix(p1, s.middle, first);
    ContainsInPrefix(p2, second, first);
    ContainsSuffix(p2, second);
    ContainsInPrefix(p3, s.beforeLink, first);
    ContainsInPrefix(p3, s.beforeLink, second);
    ContainsInPrefix(p4, f.link, first);
    ContainsInPrefix(p4, f.link, second);
    ContainsSuffix(p4, f.link);
    ContainsInPrefix(p5, s.tail, first);
    ContainsInPrefix(p5, s.tail, second);
    ContainsInPrefix(p5, s.tail, f.link);
  }

  /** The template writes `@` right before the author, tagging them. */
  predicate TagsAuthor(s: Shape) {
    var before := if s.authorFirst then s.lead else s.middle;
    |before| > 0 && before[|before| - 1] == '@'
  }

  /** A template that tags the author gives a message holding `@` followed
      by the author's name. */
  lemma RenderTagsAuthor(s: Shape, f: Fields)
    requires TagsAuthor(s)
    ensures Contains(Render(s, f), "@" + f.author)
  {
    var tag := "@" + f.author;
    if s.authorFirst {
      var before := s.lead[..|s.lead| - 1];
      var p := s.lead + f.author;
      assert s.lead == before + "@";
      assert p == before + tag;
      ContainsSuffix(before, tag);
      var rest := s.middle + f.title + s.beforeLink + f.link + s.tail;
      assert Render(s, f) == p + rest;
      ContainsInPrefix(p, rest, tag);
    } else {
      var before := s.lead + f.title + s.middle[..|s.middle| - 1];
      var p := s.lead + f.title + s.middle + f.author;
      assert s.middle == s.middle[..|s.middle| - 1] + "@";
      assert p == before + tag;
      ContainsSuffix(before, tag);
      var rest := s.beforeLink + f.link + s.tail;
      assert Render(s, f) == p + rest;
      ContainsInPrefix(p, rest, tag);
    }
  }
}

=== FILE: tweet.dfy ===
/** The 280-character ceiling both JavaScript bots apply before tweeting. */
module Tweet {
  import opened Strings

  const TWEET_LIMIT := 280
  const ELLIPSIS := "..."

  /** `if (message.length > 280) message = message.slice(0, 277) + '...'`. */
  function Truncate(message: string): (r: string)
    ensures |r| <= TWEET_LIMIT
    ensures |message| <= TWEET_LIMIT ==> r == message
    ensures |message| > TWEET_LIMIT ==>
              |r| == TWEET_LIMIT && r[..TWEET_LIMIT - |ELLIPSIS|] == message[..TWEET_LIMIT - |ELLIPSIS|] &&
              EndsWith(r, ELLIPSIS)
  {
    if |message| > TWEET_LIMIT then message[..TWEET_LIMIT - |ELLIPSIS|] + ELLIPSIS else message
  }

  /** Truncating an already truncated message changes nothing. */
  lemma TruncateIdempotent(message: string)
    ensures Truncate(Truncate(message)) == Truncate(message)
  {
  }
}

=== FILE: wrappers.dfy ===
/** The optional values the bots pass around: a regex capture that did not
    match, a dictionary key that is absent, a gist file entry that is missing. */
module Wrappers {

  datatype Option<+T> = None | Some(value: T) {

    /** The value, or `default` when there is none. */
    function GetOr(default: T): T {
      match this
      case Some(v) => v
      case None => default
    }
  }
}
